=== FILE: README.md ===
# Library-Management: loans, catalogue and accounts as store transitions

This project models the server core of the Library-Management application, an
Express + Mongoose API. It covers books, members and loans. The database is an
abstract `Store`: books and loans are maps from id to document, and members are
a sequence in natural order, which is the order `findOne` scans. Each route
handler is one pure transition. It takes the store and the request, and gives
the store after the request together with the response.

- `Loans` models borrowing and returning (routes/loans.js). It also defines a
  book's *stock*: copies on the shelf plus open loans on that book.
- `Books` models creating, listing, patching and deleting books (routes/books.js).
- `AuthRoutes` models register and login (routes/auth.js).
- `Schemas` models the Joi request schemas and the `validate` middleware.
- `Access` models `requireAuth`.
- `Errors` models `errorHandler`, `notFound` and the errors the handlers raise.
  These three modules come from src/utils.js.
- `Model` holds the document shapes and Mongoose field rules (src/model.js).
  These are trimming, lower-casing, defaults, minimums, the sparse unique ISBN
  index and the password pre-save hook.
- `Text` models JavaScript's `trim` and the lower-casing setter.
- `Lifecycle` strings handlers together into traces. It proves what holds after
  any sequence of requests:
  - borrows and returns conserve stock, with the borrow casting both ids
    before it writes (see Findings for the handler as written);
  - a returned loan is final;
  - ISBN, email and member-id uniqueness survive every request;
  - without a PATCH, no copy count becomes negative or null.

Some behaviour is not computed by the model and is passed in as a parameter:

- the clock (`now`, in milliseconds);
- fresh document ids, each with a precondition that the id is unused;
- bcrypt's `hash` and `compare`;
- the JWT `sign` and `verify`, including expiry;
- Joi's email grammar (`isEmail`);
- which strings Mongoose accepts as ObjectIds (`isObjectId`);
- Joi's conversion of a numeric string to a number under its default `convert` option (`numeral`).

The email a register or login request carries is looked up after the schema's
`lowercase` and `trim` setters have been applied to it, as Mongoose casts query
filters through the schema. A stored email is always in that normal form.

`GET /api/loans` populates `member` with the whole member document, and that
document includes the stored password hash. `Loans.Populate` models it as
written.

## Model

| member | source | states |
|---|---|---|
| Loans.Borrow | routes/loans.js:9-14 | The borrow fails with "Book unavailable" exactly when the book is missing or has fewer than one copy. On success that book loses exactly one copy and ends with at least 0, and no other book or member changes. Exactly one new open loan for (bookId, memberId) is added, borrowed now and due `now + days * 86400000`. |
| Loans.Return | routes/loans.js:21-34 | An unknown loan gives 404 "Loan not found" and a loan already returned gives 400 "Loan already returned". The return succeeds exactly when the loan exists and is open. It then stamps `returnedAt` with now. If the book still exists its copies become `(copies or 0) + 1`; otherwise the catalogue is unchanged. |
| Loans.OpenLoansAfterInsert | routes/loans.js:14 | A new open loan adds exactly its own id to its book's open-loan set and leaves every other book's set unchanged. |
| Loans.OpenLoansAfterClose | routes/loans.js:25-26 | Closing an open loan removes exactly its id from its book's open-loan set and leaves every other book's set unchanged. |
| Loans.BorrowConservesStock | routes/loans.js:12-14 | After a successful borrow, every book's copies plus open loans is what it was before. |
| Loans.ReturnConservesStock | routes/loans.js:25-32 | After a successful return, the catalogue has the same ids and every book's copies plus open loans is what it was before. |
| Loans.BorrowThenReturnRestoresBooks | routes/loans.js:12-30 | Returning the loan a borrow just created succeeds and gives back the catalogue exactly as it was before the borrow. |
| Loans.SecondReturnFails | routes/loans.js:23 | Once a return succeeds, returning the same loan again is 400 "Loan already returned". |
| Loans.BorrowIgnoresMembers | routes/loans.js:9-14 | The verdict and the loan of a borrow are the same whatever members exist: the member id is never checked. |
| Loans.BorrowAsWritten | routes/loans.js:9-14 | The handler as written, with id casting. It succeeds exactly when both ids are ObjectIds and the borrow succeeds, and then agrees with it. A malformed book id is refused before any write. A malformed member id of an available book is refused after the copy was taken: the store keeps the decremented book and records no loan. |
| Loans.MalformedMemberLosesCopy | routes/loans.js:12-14 | As written, a refused borrow with a malformed member id leaves the library owning one copy fewer of the book, and records no loan. |
| Loans.BorrowCorrected | routes/loans.js:9-14 | Both ids are cast before anything is written. It succeeds exactly when both are ObjectIds and the borrow succeeds, and then gives the borrow's store and loan. Each refusal names its cause and has no status. |
| Loans.BorrowCorrectedConservesStock | routes/loans.js:10-14 | The corrected borrow keeps every book's copies plus open loans, whether it succeeds or is refused. |
| Loans.PostBorrow | routes/loans.js:7-17 | Without authentication the reply is 401. The reply is 201 exactly when auth passes, the borrow schema accepts the body and the corrected borrow accepts: both ids are ObjectIds, and the book exists with a copy on the shelf. The 201 carries the new loan and the new store. Any other reply carries a message and leaves the store unchanged. |
| Loans.PostReturn | routes/loans.js:19-36 | Without authentication the reply is 401. After auth, an unknown loan gives 404 and a returned loan gives 400, both with the store unchanged. The reply is 200 exactly when auth passes and the loan is open. The 200 stores the return and carries the stamped loan, with `book` populated as the book after the increment, or null when the book was deleted. |
| Loans.Populate | routes/loans.js:40 | The view keeps the loan. Its book is present exactly when the book still exists, and it is then that stored document. Its member is present exactly when some member has the loan's member id, and it is then the first such member in natural order. |
| Loans.GetLoans | routes/loans.js:38-43 | Needs no authentication. The reply is 200 and lists every loan under its own id, each populated with its book and member. The store is unchanged. |
| Books.Create | routes/books.js:8 | Creation succeeds exactly when the trimmed title and author are non-empty, copies is at least 0 and the ISBN collides with no indexed book. Every failure has no status, so it replies 400. A document that passes validation can fail only on the duplicate ISBN. The stored book holds the trimmed strings and the given ISBN and copies. Unique ISBNs stay unique. |
| Books.Patch | routes/books.js:18 | An unknown id gives null and changes nothing. Otherwise the patch fails only on an ISBN collision, and only the named book is rewritten with the patched fields. Unique ISBNs stay unique. |
| Books.Delete | routes/books.js:23 | Exactly the given id leaves the catalogue. Every other book, every loan and every member stays as it was. |
| Books.PatchSkipsCopiesRule | routes/books.js:17-18 | A PATCH can store a negative or null copy count, because no validator runs on this path. |
| Books.ReturnAfterDelete | routes/books.js:22-23 | An open loan whose book was deleted can still be returned. Only the loan changes, and the book does not reappear. |
| Books.PostBook | routes/books.js:7-10 | Without authentication the reply is 401. The reply is 201 exactly when auth, the book schema and creation all pass. A 201 stores exactly the book that creation builds from the accepted body, under the new id, and carries it. That book is valid, with copies of at least 0. Any other reply carries a message and leaves the store unchanged. |
| Books.GetBooks | routes/books.js:12-15 | Needs no authentication. The reply is 200 with every stored book under its id, and the store is unchanged. |
| Books.PatchBook | routes/books.js:17-20 | Without authentication the reply is 401. An unknown id answers null with 200. For a stored book, a patch that keeps ISBNs unique answers 200 with the patched book, which is what gets stored. An ISBN collision answers 400 with the duplicate-key message and changes nothing. Books other than the named one, all loans and all members stay unchanged. |
| Books.DeleteBook | routes/books.js:22-25 | Without authentication the reply is 401. Otherwise the reply is 204 and only the named book is gone. |
| AuthRoutes.Register | routes/auth.js:10-13 | An email already stored, after normalisation, gives 400 "Email already registered". Registration succeeds exactly when the email is new and the trimmed name, the normalised email and a password of at least 6 UTF-16 code units are all present. The one appended member holds the hashed password. The answer shows id, name and email only. |
| AuthRoutes.Login | routes/auth.js:20-25 | An unknown email and a wrong password both give 401 "Invalid credentials". Success needs a matching stored hash. When the first member with the normalised email has a hash that `compare` accepts, login succeeds with a token signed over that member's id and stored email, and the user shown is their id, name and email. |
| AuthRoutes.RegisterKeepsMembersUnique | routes/auth.js:10-12 | Registration keeps member emails and ids unique. |
| AuthRoutes.FindAppended | routes/auth.js:20 | When nobody before matched, `findOne` on a list extended by one matching member finds that member. |
| AuthRoutes.RegisterThenLogin | routes/auth.js:8-27 | A member who has just registered can log in with the same email and password. The token is signed over the new id and the normalised email. |
| AuthRoutes.LoginThenAuthorize | routes/auth.js:24-25 | The token login hands out passes `requireAuth` as that same member. |
| AuthRoutes.PostRegister | routes/auth.js:8-15 | The reply is 201 exactly when the register schema and the handler accept. The 201 carries the new user and the new store. An already-registered email gives 400 "Email already registered". Any other reply leaves the store unchanged. |
| AuthRoutes.PostLogin | routes/auth.js:18-27 | The store never changes. The reply is 200 exactly when the login schema and the handler accept, and the 200 carries exactly the token and user of that login. Invalid credentials give 401. |
| Access.BearerToken | src/utils.js:59-60 | A token exists only when the header is exactly "Bearer " followed by a non-empty token. A missing header, another prefix or an empty token gives none. |
| Access.BearerRoundTrip | src/utils.js:60 | "Bearer " followed by a non-empty token gives that token back. |
| Access.RequireAuth | src/utils.js:57-70 | Every failure is 401 "Unauthorized". The request passes exactly when there is a token, `verify` accepts it and a member has its `sub` as id. The user shown is that stored member without the password. |
| Errors.ErrorHandler | src/utils.js:41-47 | The status is the error's status when it is truthy, else 400. The message is the error's when non-empty, else "Error". |
| Errors.NotFound | src/utils.js:38-40 | The reply is always 404 "Route not found". |
| Errors.NamedErrorReplies | src/utils.js:42-44 | Each error a handler raises reaches the client with its own status and message. |
| Schemas.Lookup | src/utils.js:6 | A key is found exactly when the body has it. The value returned is that of its last occurrence, as `JSON.parse` keeps the last duplicate. |
| Schemas.UnknownKey | src/utils.js:11-36 | Reports nothing exactly when every key is declared. Otherwise it reports an undeclared key, and every key before it in the body is declared. |
| Schemas.NoUnknownKeys | src/utils.js:11-36 | An object schema accepts exactly the bodies whose keys are all declared. |
| Schemas.RequiredString | src/utils.js:13 | `Joi.string().required()` accepts exactly a present, non-empty string and gives it back unchanged. |
| Schemas.EmailString | src/utils.js:20 | Accepts exactly a required string that `isEmail` accepts. |
| Schemas.LongString | src/utils.js:30 | Accepts exactly a required string of at least the minimum length, counted in UTF-16 code units, and gives it back unchanged. |
| Schemas.OptionalIsbn | src/utils.js:15 | Accepts exactly an absent ISBN, null or any string. These give no ISBN, a null ISBN and that exact string. |
| Schemas.Integer | src/utils.js:16 | An absent key gives the default. A present key is accepted exactly when the number Joi reads from it is a whole number within the bounds. That number is a JSON number as it is, or a numeric string such as `"14"` converted by `numeral`. The number is kept, never clamped. A value that is neither gives "must be a number". |
| Schemas.BookSchema | src/utils.js:12-17 | A body is accepted exactly when it is an object and the title, author, ISBN and copies rules and the no-undeclared-key rule all accept. The value is built from exactly those fields. Copies is 1 when absent and at least 0. |
| Schemas.MemberSchema | src/utils.js:18-21 | A body is accepted exactly when it is an object whose name is a required string, whose email `isEmail` accepts, and which has no undeclared key. The value holds exactly that name and email. |
| Schemas.BorrowSchema | src/utils.js:22-26 | A body is accepted exactly when it is an object whose two ids are required strings, whose days passes the integer rule for [1, 30] and which has no undeclared key. The value holds exactly those ids and days, with 7 when days is absent. |
| Schemas.RegisterSchema | src/utils.js:27-31 | A body is accepted exactly when it is an object with a required name, an email that `isEmail` accepts, a password of at least 6 UTF-16 code units and no undeclared key. The value holds exactly those three strings. |
| Schemas.LoginSchema | src/utils.js:32-35 | A body is accepted exactly when it is an object with an email that `isEmail` accepts, a non-empty password and no undeclared key. The value holds exactly those two strings. |
| Schemas.RegisterFieldRules | src/utils.js:27-31 | A register body names its first missing field, in declaration order: name, then email, then password. Each gets Joi's message `"<key>" is required`. |
| Schemas.RegisterPasswordRule | src/utils.js:30 | With name and email accepted, a password shorter than 6 UTF-16 code units is refused with `"password" length must be at least 6 characters long`. A longer one is accepted and kept. |
| Schemas.LoginFieldRules | src/utils.js:32-35 | A login body names its first missing field: email, then password, each with Joi's `"<key>" is required`. |
| Schemas.Validate | src/utils.js:5-9 | Succeeds exactly when the schema accepts, and then gives the normalised value. A rejection carries no status and has Joi's message. |
| Schemas.RejectedBodiesAre400 | src/utils.js:7 | A body any schema rejects reaches the client as 400 with Joi's message. |
| Schemas.BorrowDaysRule | src/utils.js:25 | With valid ids and no undeclared key, a borrow body is accepted exactly when days is absent, and then 7, or reads as a whole number in [1, 30], and then exactly that number. It may be a JSON number or a numeric string. |
| Schemas.FormDaysAccepted | src/utils.js:22-26 | The all-string body the borrow form posts, with days `"14"`, is accepted with 14 days when `numeral` reads "14" as 14. |
| Schemas.BookCopiesRule | src/utils.js:16 | With a valid title, author and ISBN and no undeclared key, an absent copies gives 1. A present one is accepted exactly when it reads as a safe whole number of at least 0, either a JSON number or a numeric string, and then the stored copies is exactly that number. |
| Model.BookViolations | src/model.js:5-8 | There are no violations exactly when the title and author are non-empty and copies is at least 0 or null. |
| Model.PutKeepsIsbnsUnique | src/model.js:7 | Writing a book whose ISBN the sparse unique index accepts keeps indexed ISBNs unique. |
| Model.NormalisedEmailIsCanonical | src/model.js:13 | A stored email is a fixed point of the lowercase and trim setters, has no surrounding whitespace and has no upper-case ASCII letter. |
| Model.MemberViolations | src/model.js:12-14 | There are no violations exactly when the name and email are non-empty and any password has at least 6 UTF-16 code units. |
| Model.RehashOnlyWhenModified | src/model.js:18-22 | The saved password differs from the assigned one only when the path was modified, and then it is the hash. |
| Model.FindMember | src/model.js:38 | `findOne` gives the first member, in natural order, whose path equals the value. It gives none exactly when no member matches. |
| Text.Trim | src/model.js:5 | The result is the input with whitespace-only padding removed, and it neither starts nor ends with whitespace. |
| Text.TrimIdempotent | src/model.js:5 | Trimming twice is trimming once. |
| Text.LowerTrimCommute | src/model.js:13 | Lower-casing and trimming commute, so the order of the two email setters does not matter. |
| Text.LowerIdempotent | src/model.js:13 | Lower-casing twice is lower-casing once. |
| Text.Utf16Length | src/utils.js:30 | The JavaScript length lies between the number of code points and twice that. It equals the code-point count exactly when no code point is at or above U+10000, and equals twice that count exactly when every code point is. |
| Text.Utf16LengthAppend | src/model.js:14 | The UTF-16 length of a concatenation is the sum of the parts' lengths. |
| Text.AstralCountsTwice | src/model.js:14 | Three emoji are three code points but six UTF-16 units, so they pass a minimum length of 6. |
| Lifecycle.Apply | routes/loans.js:7-36 | No handler removes a loan or changes a loan that has been returned. A borrow step runs the corrected borrow, which casts both ids before writing. |
| Lifecycle.StepKeepsConsistent | src/model.js:7-13 | Each handler keeps ISBNs, member emails and member ids unique. |
| Lifecycle.RunKeepsConsistent | src/model.js:7-13 | Every trace of handled requests keeps ISBNs, member emails and member ids unique. |
| Lifecycle.CopiesUpdateKeepsIsbnsUnique | src/model.js:7 | Rewriting only a book's copy count keeps ISBNs unique. |
| Lifecycle.BorrowKeepsShelvesSound | routes/loans.js:11-12 | When every count is present and at least 0, a borrow keeps it so. |
| Lifecycle.ReturnKeepsShelvesSound | routes/loans.js:29-31 | When every count is present and at least 0, a return keeps it so. |
| Lifecycle.CreateKeepsShelvesSound | src/utils.js:16 | When every count is present and at least 0, creating a book keeps it so. |
| Lifecycle.StepKeepsShelvesSound | src/model.js:8 | Every handler except PATCH keeps every count present and at least 0. |
| Lifecycle.NoPatchKeepsShelvesSound | src/model.js:8 | Without a PATCH, no trace makes a copy count null or negative. |
| Lifecycle.ReturnedLoansAreFinal | routes/loans.js:23-25 | Across any trace, loans are never removed and a returned loan never changes again. |
| Lifecycle.ReturnSucceedsOnce | routes/loans.js:23 | After a successful return, any later return of that loan is 400 "Loan already returned", whatever requests happen in between. |
| Lifecycle.CirculationStepConservesStock | routes/loans.js:11-32 | One borrow, with the corrected borrow, or one return keeps the catalogue's ids and every book's stock, whether it succeeds or is refused. |
| Lifecycle.StockConservedByCirculation | routes/loans.js:11-32 | Any trace of returns and corrected borrows, successful or refused, keeps the catalogue's ids and every book's copies plus open loans. |

## Left out

- Database I/O and failures are not modelled, and every save is assumed to succeed. Casting a malformed ObjectId is modelled only for the borrow, through the abstract `isObjectId`. For return, PATCH and DELETE, a malformed id gives a `CastError` (a 400) that is not modelled: the model treats it as an unknown id. Ids are compared as exact strings, so an ObjectId spelled in upper-case hex, which Mongoose casts to the same id, is not found in the model.
- Saves are assumed to succeed even after a PATCH stored a negative or null count. Mongoose's document validators run again when borrow and return save the book, and could then refuse the save; that refusal is not modelled.
- The two writes of borrow and of return are modelled as one atomic step. The race between concurrent requests is not modelled.
- Schemas.Integer: which strings Joi reads as numbers is the abstract `numeral`. JSON numbers and converted strings are exact reals, so floating-point rounding is not modelled.
- Text.Lower: lowercases ASCII letters only; JavaScript's full Unicode case mapping is not modelled.
- Model.DuplicateIsbn: the E11000 message is abbreviated. The server's message also names the database before `books` and ends with the `dup key: { isbn: ... }` part, and neither is modelled.
- Errors.ErrorHandler: the `stack` field, sent only when `NODE_ENV` is development, is not modelled.
- The `createdAt` and `updatedAt` timestamps are not modelled.
- Loans.Borrow: `borrowedAt` and `dueAt` are both computed from one `now`; the source reads the clock twice.
- routes/members.js, server.js, routes/index.js and public/js are not part of this model.
- JWT signing, verification and one-day expiry are inside the abstract `sign` and `verify`.
- bcrypt salting and hashing are inside the abstract `hash` and `compare`.
- Books.GetBooks: the reply is a map from id to book. The source replies with an array in the collection's natural order, and that order is not modelled.
- Loans.GetLoans: the reply is a map from id to populated loan. The source replies with an array in natural order, and that order is not modelled.
- Loans.Populate: a populated ref whose document is gone is modelled as `None`; the rest of Mongoose's population rules are not modelled.
- Books.Patch: the body is given already cast to a `BookPatch`. Mongoose casting of non-integer or string `copies` and unknown paths being dropped are not modelled.
- Joi's email format check is the abstract predicate `isEmail`.
- Schemas.UnknownKey: reports the first undeclared key in body order. JavaScript's `Object.keys` lists integer-like keys first, in ascending order, and that ordering is not modelled.
- Loans.PostBorrow: the route is modelled with the corrected borrow only. The handler as written answers 400 while keeping the decremented book, and that is modelled by Loans.BorrowAsWritten, not at route level.
- Loans.BorrowCorrected: the exact text of Mongoose's cast messages depends on its version; only their lack of a status, which makes the reply 400, is relied on.
- The unique index on member email is not modelled as a database error. Register checks for the email first, and only a race could reach the index.

## Findings

| source | as written | input that shows it | evidently intended | confidence | as-written member | corrected member |
|---|---|---|---|---|---|---|
| routes/loans.js:10-14 | The book's copy is taken and saved before `Loan.create` casts `memberId`, and a cast failure does not undo the save. | An authenticated borrow of a book with copies left, with a valid `bookId` and `memberId: "x"`. Joi accepts any non-empty string, and the reply is 400, but the book has one copy fewer and no loan exists (Loans.MalformedMemberLosesCopy). The corrected borrow conserves stock on every outcome (Loans.BorrowCorrectedConservesStock). | A refused borrow leaves the store unchanged, so copies plus open loans stay constant. | not executed | Loans.BorrowAsWritten | Loans.BorrowCorrected |

=== FILE: access.dfy ===
/**
 * The authentication helpers of src/utils.js: the token payload `signToken`
 * signs, and `requireAuth`, which reads a bearer token from the
 * `Authorization` header and resolves it to a member. Signing and checking a
 * JWT (with its one-day expiry) are the abstract `sign` and `verify`.
 */
module Access {
  import opened Wrappers
  import opened Errors
  import opened Model
  import Text

  /** The JWT payload: `sub` is the member id as a string. */
  datatype Claims = Claims(sub: Id, email: string)

  const BearerPrefix := "Bearer "

  /** The payload `signToken` is given at login. */
  function TokenClaims(m: Member): Claims {
    Claims(m.id, m.email)
  }

  /**
   * The token of an `Authorization: Bearer <token>` header. The prefix must
   * match exactly (case and single space included); a missing header reads as
   * the empty string, and an empty token counts as none.
   */
  function BearerToken(authorization: Option<string>): (token: Option<string>)
    ensures token.Some? ==> authorization == Some(BearerPrefix + token.value) && token.value != ""
    ensures token.None? ==> (authorization.None? || !Text.StartsWith(authorization.value, BearerPrefix)
                             || authorization.value == BearerPrefix)
  {
    var header := authorization.GetOr("");
    var sliced := if Text.StartsWith(header, BearerPrefix) then Some(header[|BearerPrefix|..]) else None;
    if sliced.None? || sliced.value == "" then None
    else
      assert header == BearerPrefix + sliced.value;
      sliced
  }

  /** A header built from a non-empty token gives that token back. */
  lemma BearerRoundTrip(token: string)
    requires token != ""
    ensures BearerToken(Some(BearerPrefix + token)) == Some(token)
  {
    assert (BearerPrefix + token)[..|BearerPrefix|] == BearerPrefix;
    assert (BearerPrefix + token)[|BearerPrefix|..] == token;
  }

  /**
   * `requireAuth`: the member named by the token's `sub`, shown without the
   * password. Every failure (no token, a token `verify` refuses, an unknown
   * member) is the same 401 "Unauthorized".
   */
  function RequireAuth(s: Store, authorization: Option<string>, verify: string -> Option<Claims>): (r: Result<UserView, AppError>)
    ensures r.Err? ==> r.error == Unauthorized
    ensures r.Ok? <==> (BearerToken(authorization).Some? && verify(BearerToken(authorization).value).Some?
                        && FindMember(s.members, ById, verify(BearerToken(authorization).value).value.sub).Some?)
    ensures r.Ok? ==> r.value.id == verify(BearerToken(authorization).value).value.sub
                      && exists i :: 0 <= i < |s.members| && r.value == View(s.members[i])
  {
    match BearerToken(authorization)
    case None => Err(Unauthorized)
    case Some(token) =>
      match verify(token)
      case None => Err(Unauthorized)
      case Some(claims) =>
        match FindMember(s.members, ById, claims.sub)
        case None => Err(Unauthorized)
        case Some(i) => Ok(View(s.members[i]))
  }
}

=== FILE: auth_routes.dfy ===
/**
 * The account routes of routes/auth.js: `POST /register` (duplicate-email
 * check, then create with a hashed password) and `POST /login` (the same
 * 401 for an unknown email and a wrong password; a signed token on success).
 * bcrypt's `hash`/`compare` and the JWT `sign`/`verify` are abstract.
 */
module AuthRoutes {
  import opened Wrappers
  import opened Errors
  import opened Model
  import opened Schemas
  import opened Http
  import Access
  import Text

  /** A login's answer: the signed token and the member without the password. */
  datatype Session = Session(token: string, user: UserView)

  /** The member document `Member.create` builds from a register body, before the pre-save hook. */
  function Applicant(input: RegisterInput, memberId: Id): Member {
    Member(memberId, Text.Trim(input.name), NormaliseEmail(input.email), Some(input.password))
  }

  /**
   * The register handler after validation. An email already stored (after the
   * setters normalise it) is 400 "Email already registered" and adds nobody.
   * Otherwise the member is stored with the hash of the password, and only
   * `_id`, name and email are answered.
   */
  function Register(s: Store, input: RegisterInput, hash: string -> string, memberId: Id): (r: Result<(Store, UserView), AppError>)
    requires FindMember(s.members, ById, memberId).None?
    ensures FindMember(s.members, ByEmail, NormaliseEmail(input.email)).Some? ==> r == Err(EmailTaken)
    ensures r.Ok? <==> (FindMember(s.members, ByEmail, NormaliseEmail(input.email)).None?
                        && Text.Trim(input.name) != "" && NormaliseEmail(input.email) != ""
                        && Text.Utf16Length(input.password) >= MinPasswordLength)
    ensures r.Ok? ==>
      var m := Member(memberId, Text.Trim(input.name), NormaliseEmail(input.email), Some(hash(input.password)));
      && r.value.0 == s.(members := s.members + [m])
      && r.value.1 == UserView(memberId, m.name, m.email)
    ensures r.Err? ==> r.error == EmailTaken || r.error.status.None?
  {
    var m := Applicant(input, memberId);
    if FindMember(s.members, ByEmail, m.email).Some? then Err(EmailTaken)
    else
      var violations := MemberViolations(m.name, m.email, m.password);
      if violations != [] then Err(ValidationFailed("Member", violations))
      else
        match HashOnSave(m.password, true, hash)
        case Err(e) => Err(e)
        case Ok(password) =>
          var saved := m.(password := password);
          Ok((s.(members := s.members + [saved]), View(saved)))
  }

  /** bcryptjs refuses to compare against a member that has no stored hash. */
  const CompareIllegalArguments := Raise("Illegal arguments: string, undefined")

  /**
   * The login handler after validation. An unknown email and a wrong password
   * both give 401 "Invalid credentials". On success the token is signed over
   * `{ sub: <member id>, email: <stored email> }` and the user is shown
   * without the password.
   */
  function Login(s: Store, input: LoginInput, compare: (string, string) -> bool, sign: Access.Claims -> string): (r: Result<Session, AppError>)
    ensures var found := FindMember(s.members, ByEmail, NormaliseEmail(input.email));
      && (found.None? ==> r == Err(InvalidCredentials))
      && ((found.Some? && s.members[found.value].password.Some?
           && !compare(input.password, s.members[found.value].password.value)) ==> r == Err(InvalidCredentials))
      && (r.Ok? ==> found.Some? && s.members[found.value].password.Some?
                    && compare(input.password, s.members[found.value].password.value)
                    && r.value.token == sign(Access.Claims(s.members[found.value].id, s.members[found.value].email))
                    && r.value.user == UserView(s.members[found.value].id, s.members[found.value].name,
                                                s.members[found.value].email))
      && (r.Err? ==> r.error == InvalidCredentials || (found.Some? && s.members[found.value].password.None?))
    ensures var found := FindMember(s.members, ByEmail, NormaliseEmail(input.email));
      found.Some? && s.members[found.value].password.Some?
      && compare(input.password, s.members[found.value].password.value) ==>
        r == Ok(Session(sign(Access.TokenClaims(s.members[found.value])), View(s.members[found.value])))
  {
    match FindMember(s.members, ByEmail, NormaliseEmail(input.email))
    case None => Err(InvalidCredentials)
    case Some(i) =>
      var member := s.members[i];
      match member.password
      case None => Err(CompareIllegalArguments)
      case Some(stored) =>
        if !compare(input.password, stored) then Err(InvalidCredentials)
        else Ok(Session(sign(Access.TokenClaims(member)), View(member)))
  }

  /** Registration keeps emails and ids unique among members. */
  lemma RegisterKeepsMembersUnique(s: Store, input: RegisterInput, hash: string -> string, memberId: Id)
    requires FindMember(s.members, ById, memberId).None?
    requires EmailsUnique(s.members) && MemberIdsUnique(s.members)
    requires Register(s, input, hash, memberId).Ok?
    ensures var t := Register(s, input, hash, memberId).value.0;
      EmailsUnique(t.members) && MemberIdsUnique(t.members)
  {
    var t := Register(s, input, hash, memberId).value.0;
    var m := t.members[|s.members|];
    assert t.members == s.members + [m];
    forall i, j | 0 <= i < j < |t.members|
      ensures t.members[i].email != t.members[j].email && t.members[i].id != t.members[j].id
    {
      assert t.members[i] == s.members[i];
      if j < |s.members| {
        assert t.members[j] == s.members[j];
      }
    }
  }

  /** The first match in a list extended by one member is that member when nobody before matched. */
  lemma FindAppended(ms: seq<Member>, m: Member, key: MemberKey, value: string)
    requires FindMember(ms, key, value).None? && KeyOf(m, key) == value
    ensures FindMember(ms + [m], key, value) == Some(|ms|)
  {
    var extended := ms + [m];
    assert KeyOf(extended[|ms|], key) == value;
    assert forall j :: 0 <= j < |ms| ==> KeyOf(extended[j], key) != value by {
      assert forall j :: 0 <= j < |ms| ==> extended[j] == ms[j];
    }
  }

  /**
   * A member who has just registered can log in with the same email and
   * password, given a `compare` that accepts a password against its own hash:
   * the token is signed over the new id and the stored email.
   */
  lemma RegisterThenLogin(s: Store, input: RegisterInput, hash: string -> string, memberId: Id,
                          compare: (string, string) -> bool, sign: Access.Claims -> string)
    requires FindMember(s.members, ById, memberId).None?
    requires forall p :: compare(p, hash(p))
    requires Register(s, input, hash, memberId).Ok?
    ensures var (t, user) := Register(s, input, hash, memberId).value;
      Login(t, LoginInput(input.email, input.password), compare, sign)
        == Ok(Session(sign(Access.Claims(memberId, NormaliseEmail(input.email))), user))
  {
    var (t, user) := Register(s, input, hash, memberId).value;
    var m := t.members[|s.members|];
    assert t.members == s.members + [m];
    FindAppended(s.members, m, ByEmail, NormaliseEmail(input.email));
  }

  /**
   * The token a login hands out opens `requireAuth` for that same member,
   * given a `verify` that gives back whatever `sign` signed and member ids
   * that are unique.
   */
  lemma LoginThenAuthorize(s: Store, input: LoginInput, compare: (string, string) -> bool,
                           sign: Access.Claims -> string, verify: string -> Option<Access.Claims>)
    requires MemberIdsUnique(s.members)
    requires forall c :: verify(sign(c)) == Some(c)
    requires forall c :: sign(c) != ""
    requires Login(s, input, compare, sign).Ok?
    ensures var session := Login(s, input, compare, sign).value;
      Access.RequireAuth(s, Some(Access.BearerPrefix + session.token), verify) == Ok(session.user)
  {
    var session := Login(s, input, compare, sign).value;
    var i := FindMember(s.members, ByEmail, NormaliseEmail(input.email)).value;
    var claims := Access.TokenClaims(s.members[i]);
    assert session.token == sign(claims);
    Access.BearerRoundTrip(session.token);
    var j := FindMember(s.members, ById, claims.sub);
    assert s.members[j.value].id == s.members[i].id;
    assert j.value == i;
  }

  // ---- Routes ----------------------------------------------------------------

  /** `POST /api/auth/register`: `validate(schemas.register)`, then the handler; 201 with the new user. */
  function PostRegister(s: Store, body: Body, isEmail: string -> bool, hash: string -> string, memberId: Id): (o: Outcome)
    requires FindMember(s.members, ById, memberId).None?
    ensures o.response.status != 201 ==> o.store == s && o.response.payload.Message?
    ensures o.response.status == 201 <==>
      (RegisterSchema(body, isEmail).Valid? && Register(s, RegisterSchema(body, isEmail).value, hash, memberId).Ok?)
    ensures o.response.status == 201 ==>
      var r := Register(s, RegisterSchema(body, isEmail).value, hash, memberId).value;
      o.store == r.0 && o.response.payload == UserDoc(r.1)
    ensures RegisterSchema(body, isEmail).Valid?
            && Register(s, RegisterSchema(body, isEmail).value, hash, memberId) == Err(EmailTaken) ==>
      o.response == Response(400, Message("Email already registered"))
  {
    var input := Validate(RegisterSchema(body, isEmail));
    if input.Err? then Fail(s, input.error)
    else
      var r := Register(s, input.value, hash, memberId);
      if r.Err? then Fail(s, r.error)
      else Outcome(r.value.0, Response(201, UserDoc(r.value.1)))
  }

  /** `POST /api/auth/login`: `validate(schemas.login)`, then the handler; the store never changes. */
  function PostLogin(s: Store, body: Body, isEmail: string -> bool, compare: (string, string) -> bool,
                     sign: Access.Claims -> string): (o: Outcome)
    ensures o.store == s
    ensures o.response.status == 200 <==>
      (LoginSchema(body, isEmail).Valid? && Login(s, LoginSchema(body, isEmail).value, compare, sign).Ok?)
    ensures o.response.status == 200 ==>
      var session := Login(s, LoginSchema(body, isEmail).value, compare, sign).value;
      o.response.payload == SessionDoc(session.token, session.user)
    ensures LoginSchema(body, isEmail).Valid?
            && Login(s, LoginSchema(body, isEmail).value, compare, sign) == Err(InvalidCredentials) ==>
      o.response == Response(401, Message("Invalid credentials"))
  {
    match Validate(LoginSchema(body, isEmail))
    case Err(e) => Fail(s, e)
    case Ok(input) =>
      match Login(s, input, compare, sign)
      case Err(e) => Fail(s, e)
      case Ok(session) => Outcome(s, Response(200, SessionDoc(session.token, session.user)))
  }
}

=== FILE: books.dfy ===
/**
 * The catalogue routes of routes/books.js: create (authenticated, through
 * `schemas.book`), list (public), patch (authenticated, no schema) and delete
 * (authenticated, loans left in place).
 */
module Books {
  import opened Wrappers
  import opened Errors
  import opened Model
  import opened Schemas
  import opened Http
  import Access
  import Loans
  import Text

  /**
   * The fields of a PATCH body that the book schema knows, after casting;
   * `None` leaves the field alone, and `copies` may be set to null.
   */
  datatype BookPatch = BookPatch(title: Option<string>, author: Option<string>, isbn: Option<Isbn>, copies: Option<Option<int>>)

  /**
   * `Book.create`: the document validators first (title and author required
   * after trimming, copies at least 0), then the unique ISBN index. Both
   * errors carry no status, so either reaches the client as 400.
   */
  function Create(s: Store, input: BookInput, bookId: Id): (r: Result<(Store, Book), AppError>)
    requires bookId !in s.books
    ensures r.Ok? <==> (Text.Trim(input.title) != "" && Text.Trim(input.author) != "" && input.copies >= MinCopies
                        && !IsbnTaken(s.books, bookId, input.isbn))
    ensures r.Err? ==> r.error.status.None?
    ensures r.Err? && BookValid(NewBook(input.title, input.author, input.isbn, input.copies)) ==> r.error == DuplicateIsbn
    ensures r.Ok? ==>
      var (t, book) := r.value;
      && t == s.(books := s.books[bookId := book])
      && BookValid(book)
      && book.title == Text.Trim(input.title) && book.author == Text.Trim(input.author)
      && book.isbn == input.isbn && book.copies == Some(input.copies)
    ensures r.Ok? && IsbnsUnique(s.books) ==> IsbnsUnique(r.value.0.books)
  {
    var book := NewBook(input.title, input.author, input.isbn, input.copies);
    var violations := BookViolations(book);
    if violations != [] then Err(ValidationFailed("Book", violations))
    else if IsbnTaken(s.books, bookId, book.isbn) then Err(DuplicateIsbn)
    else
      PutKeepsIsbnsUnique(s.books, bookId, book);
      Ok((s.(books := s.books[bookId := book]), book))
  }

  /** The document `findByIdAndUpdate` writes: named fields replaced (strings trimmed), the rest kept. */
  function ApplyPatch(b: Book, p: BookPatch): Book {
    Book(if p.title.Some? then Text.Trim(p.title.value) else b.title,
         if p.author.Some? then Text.Trim(p.author.value) else b.author,
         p.isbn.GetOr(b.isbn),
         p.copies.GetOr(b.copies))
  }

  /**
   * `findByIdAndUpdate` without validators: an unknown id answers null and
   * changes nothing; otherwise only that book changes, refused only by the
   * unique ISBN index.
   */
  function Patch(s: Store, bookId: Id, p: BookPatch): (r: Result<(Store, Option<Book>), AppError>)
    ensures bookId !in s.books ==> r == Ok((s, None))
    ensures bookId in s.books ==> (r.Ok? <==> !IsbnTaken(s.books, bookId, ApplyPatch(s.books[bookId], p).isbn))
    ensures r.Err? ==> r.error == DuplicateIsbn
    ensures r.Ok? && bookId in s.books ==>
      var updated := ApplyPatch(s.books[bookId], p);
      r.value == (s.(books := s.books[bookId := updated]), Some(updated))
    ensures r.Ok? && IsbnsUnique(s.books) ==> IsbnsUnique(r.value.0.books)
  {
    if bookId !in s.books then Ok((s, None))
    else
      var updated := ApplyPatch(s.books[bookId], p);
      if IsbnTaken(s.books, bookId, updated.isbn) then Err(DuplicateIsbn)
      else
        PutKeepsIsbnsUnique(s.books, bookId, updated);
        Ok((s.(books := s.books[bookId := updated]), Some(updated)))
  }

  /** `findByIdAndDelete`: that book goes, whether or not it existed; loans that refer to it stay. */
  function Delete(s: Store, bookId: Id): (t: Store)
    ensures bookId !in t.books
    ensures forall b :: b in t.books <==> (b in s.books && b != bookId)
    ensures forall b :: b in t.books ==> t.books[b] == s.books[b]
    ensures t.loans == s.loans && t.members == s.members
  {
    s.(books := s.books - {bookId})
  }

  /** A PATCH may set a negative or null copy count: the schema's minimum is not enforced on this path. */
  lemma PatchSkipsCopiesRule(s: Store, bookId: Id, copies: Option<int>)
    requires bookId in s.books && IsbnsUnique(s.books)
    ensures var r := Patch(s, bookId, BookPatch(None, None, None, Some(copies)));
      r.Ok? && r.value.0.books[bookId].copies == copies
      && (copies.Some? && copies.value < 0 ==> !BookValid(r.value.0.books[bookId]))
  {
  }

  /**
   * A loan whose book was deleted can still be returned: only the loan
   * changes, and the deleted book does not come back.
   */
  lemma ReturnAfterDelete(s: Store, bookId: Id, loanId: Id, now: int)
    requires loanId in s.loans && IsOpen(s.loans[loanId]) && s.loans[loanId].book == bookId
    ensures var r := Loans.Return(Delete(s, bookId), loanId, now);
      r.Ok? && r.value.0.books == Delete(s, bookId).books && bookId !in r.value.0.books
  {
  }

  // ---- Routes ----------------------------------------------------------------

  /** `POST /api/books`: `requireAuth`, `validate(schemas.book)`, then create; 201 with the new book. */
  function PostBook(s: Store, req: Request, verify: string -> Option<Access.Claims>, bookId: Id,
                    numeral: string -> Option<real>): (o: Outcome)
    requires bookId !in s.books
    ensures Access.RequireAuth(s, req.authorization, verify).Err? ==> o == Fail(s, Unauthorized)
    ensures o.response.status != 201 ==> o.store == s && o.response.payload.Message?
    ensures o.response.status == 201 <==>
      (Access.RequireAuth(s, req.authorization, verify).Ok? && BookSchema(req.body, numeral).Valid?
       && Create(s, BookSchema(req.body, numeral).value, bookId).Ok?)
    ensures o.response.status == 201 ==>
      var (t, book) := Create(s, BookSchema(req.body, numeral).value, bookId).value;
      && o.store == t && o.response.payload == BookDoc(bookId, book)
      && BookValid(book) && book.copies.Some? && book.copies.value >= 0
  {
    var user := Access.RequireAuth(s, req.authorization, verify);
    if user.Err? then Fail(s, user.error)
    else
      var input := Validate(BookSchema(req.body, numeral));
      if input.Err? then Fail(s, input.error)
      else
        var created := Create(s, input.value, bookId);
        if created.Err? then Fail(s, created.error)
        else Outcome(created.value.0, Response(201, BookDoc(bookId, created.value.1)))
  }

  /** `GET /api/books`: every stored book, with no authentication; the store is untouched. */
  function GetBooks(s: Store): (o: Outcome)
    ensures o.store == s && o.response.status == 200
    ensures o.response.payload.BookList?
    ensures forall b :: b in s.books <==> b in o.response.payload.books
    ensures forall b :: b in s.books ==> o.response.payload.books[b] == s.books[b]
  {
    Outcome(s, Response(200, BookList(s.books)))
  }

  /** `PATCH /api/books/:id`: `requireAuth`, then the update; 200 with the updated book, or null. */
  function PatchBook(s: Store, authorization: Option<string>, bookId: Id, p: BookPatch, verify: string -> Option<Access.Claims>): (o: Outcome)
    ensures Access.RequireAuth(s, authorization, verify).Err? ==> o == Fail(s, Unauthorized)
    ensures Access.RequireAuth(s, authorization, verify).Ok? && bookId !in s.books ==>
      o == Outcome(s, Response(200, NullDoc))
    ensures Access.RequireAuth(s, authorization, verify).Ok? && bookId in s.books && Patch(s, bookId, p).Ok? ==>
      o == Outcome(Patch(s, bookId, p).value.0, Response(200, BookDoc(bookId, ApplyPatch(s.books[bookId], p))))
    ensures Access.RequireAuth(s, authorization, verify).Ok? && Patch(s, bookId, p).Err? ==>
      o == Outcome(s, Response(400, Message(DuplicateIsbn.message)))
    ensures forall b :: b in s.books && b != bookId ==> b in o.store.books && o.store.books[b] == s.books[b]
    ensures o.store.loans == s.loans && o.store.members == s.members
  {
    match Access.RequireAuth(s, authorization, verify)
    case Err(e) => Fail(s, e)
    case Ok(_) =>
      match Patch(s, bookId, p)
      case Err(e) => Fail(s, e)
      case Ok((t, None)) => Outcome(t, Response(200, NullDoc))
      case Ok((t, Some(b))) => Outcome(t, Response(200, BookDoc(bookId, b)))
  }

  /** `DELETE /api/books/:id`: `requireAuth`, then the delete; 204 with no body. */
  function DeleteBook(s: Store, authorization: Option<string>, bookId: Id, verify: string -> Option<Access.Claims>): (o: Outcome)
    ensures Access.RequireAuth(s, authorization, verify).Err? ==> o == Fail(s, Unauthorized)
    ensures Access.RequireAuth(s, authorization, verify).Ok? ==>
      o == Outcome(Delete(s, bookId), Response(204, NoContent))
  {
    match Access.RequireAuth(s, authorization, verify)
    case Err(e) => Fail(s, e)
    case Ok(_) => Outcome(Delete(s, bookId), Response(204, NoContent))
  }
}

=== FILE: errors.dfy ===
/**
 * The errors the request handlers pass to `next`, and the two terminal
 * middlewares of src/utils.js that turn a request into an error reply:
 * `errorHandler` and `notFound`.
 */
module Errors {
  import opened Wrappers

  /** A JavaScript `Error` as the handlers build it: a message, and a `status` property only when assigned. */
  datatype AppError = AppError(status: Option<int>, message: string)

  /** The status line and `{ message }` body the client receives. */
  datatype ErrorReply = ErrorReply(status: int, message: string)

  const DefaultStatus := 400
  const DefaultMessage := "Error"

  /** `new Error(message)`: no status, so the reply falls back to 400. */
  function Raise(message: string): AppError {
    AppError(None, message)
  }

  /** `Object.assign(new Error(message), { status })`. */
  function RaiseWith(status: int, message: string): AppError {
    AppError(Some(status), message)
  }

  const Unauthorized := RaiseWith(401, "Unauthorized")
  const BookUnavailable := Raise("Book unavailable")
  const LoanNotFound := RaiseWith(404, "Loan not found")
  const LoanAlreadyReturned := RaiseWith(400, "Loan already returned")
  const EmailTaken := RaiseWith(400, "Email already registered")
  const InvalidCredentials := RaiseWith(401, "Invalid credentials")

  /** JavaScript truthiness of the `status` property: absent and 0 are both false. */
  predicate HasStatus(e: AppError) {
    e.status.Some? && e.status.value != 0
  }

  /**
   * `errorHandler`: the error's status when it has a truthy one, else 400;
   * its message when non-empty, else "Error".
   */
  function ErrorHandler(e: AppError): (r: ErrorReply)
    ensures r.status != 0 && r.message != ""
    ensures HasStatus(e) ==> r.status == e.status.value
    ensures !HasStatus(e) ==> r.status == DefaultStatus
    ensures e.message != "" ==> r.message == e.message
    ensures e.message == "" ==> r.message == DefaultMessage
  {
    ErrorReply(if HasStatus(e) then e.status.value else DefaultStatus,
               if e.message != "" then e.message else DefaultMessage)
  }

  /** `notFound`: every request no route matched gets the same 404 reply. */
  function NotFound(verb: string, path: string): (r: ErrorReply)
    ensures r.status == 404 && r.message == "Route not found"
  {
    ErrorReply(404, "Route not found")
  }

  /** Every named error of the handlers reaches the client with its own status and message. */
  lemma NamedErrorReplies()
    ensures ErrorHandler(Unauthorized) == ErrorReply(401, "Unauthorized")
    ensures ErrorHandler(BookUnavailable) == ErrorReply(400, "Book unavailable")
    ensures ErrorHandler(LoanNotFound) == ErrorReply(404, "Loan not found")
    ensures ErrorHandler(LoanAlreadyReturned) == ErrorReply(400, "Loan already returned")
    ensures ErrorHandler(EmailTaken) == ErrorReply(400, "Email already registered")
    ensures ErrorHandler(InvalidCredentials) == ErrorReply(401, "Invalid credentials")
  {
  }
}

=== FILE: http.dfy ===
/**
 * What a route handler receives and sends: the request parts the handlers
 * read, the JSON payloads they answer with, and the pair of the store after
 * the request and the response the client gets.
 */
module Http {
  import opened Wrappers
  import opened Errors
  import opened Model
  import opened Schemas

  /** A loan as `GET /api/loans` lists it: both refs populated, `None` where the document is gone. */
  datatype LoanView = LoanView(loan: Loan, book: Option<Book>, member: Option<Member>)

  datatype Payload =
    | NoContent
    | NullDoc
    | Message(text: string)
    | LoanDoc(id: Id, loan: Loan)
    | PopulatedLoanDoc(id: Id, loan: Loan, populatedBook: Option<Book>)
    | BookDoc(id: Id, book: Book)
    | BookList(books: map<Id, Book>)
    | LoanList(loans: map<Id, LoanView>)
    | UserDoc(user: UserView)
    | SessionDoc(token: string, user: UserView)

  datatype Response = Response(status: int, payload: Payload)

  /** The `Authorization` header (absent or a string) and the parsed JSON body. */
  datatype Request = Request(authorization: Option<string>, body: Body)

  /** The store once the request is handled, and the response sent for it. */
  datatype Outcome = Outcome(store: Store, response: Response)

  /** A request that ends in `next(err)`: the store as the handler left it, and the `errorHandler` reply. */
  function Fail(s: Store, e: AppError): Outcome {
    var reply := ErrorHandler(e);
    Outcome(s, Response(reply.status, Message(reply.message)))
  }
}

=== FILE: lifecycle.dfy ===
/**
 * Sequences of handled requests. Each step is one handler run to completion
 * on the store (a refused request leaves the store as it was), and the
 * lemmas here are about every trace of such steps: which invariants of the
 * collections survive, that a returned loan never changes again, and that
 * circulation alone never changes how many copies the library owns.
 */
module Lifecycle {
  import opened Wrappers
  import opened Model
  import opened Schemas
  import opened Errors
  import Loans
  import Books
  import AuthRoutes

  /** One store-changing request after authentication and validation, with the id it would mint. */
  datatype Step =
    | BorrowStep(req: BorrowInput, now: int, loanId: Id, isObjectId: string -> bool)
    | ReturnStep(loanId: Id, now: int)
    | CreateStep(book: BookInput, bookId: Id)
    | PatchStep(bookId: Id, patch: Books.BookPatch)
    | DeleteStep(bookId: Id)
    | RegisterStep(applicant: RegisterInput, hash: string -> string, memberId: Id)

  /**
   * The id a step mints is not in use yet, not even by a loan whose book was
   * deleted (MongoDB's fresh ObjectId).
   */
  predicate Fresh(s: Store, step: Step) {
    match step
    case BorrowStep(_, _, loanId, _) => loanId !in s.loans
    case CreateStep(_, bookId) => bookId !in s.books && forall l :: l in s.loans ==> s.loans[l].book != bookId
    case RegisterStep(_, _, memberId) => FindMember(s.members, ById, memberId).None?
    case _ => true
  }

  /**
   * The store after one step; a step its handler refuses changes nothing.
   * No step removes a loan or touches a loan that has been returned.
   */
  function Apply(s: Store, step: Step): (t: Store)
    requires Fresh(s, step)
    ensures s.loans.Keys <= t.loans.Keys
    ensures forall id :: id in s.loans && !IsOpen(s.loans[id]) ==> t.loans[id] == s.loans[id]
  {
    match step
    case BorrowStep(req, now, loanId, isObjectId) =>
      (match Loans.BorrowCorrected(s, req, now, loanId, isObjectId) case Ok((t, _)) => t case Err(_) => s)
    case ReturnStep(loanId, now) =>
      (match Loans.Return(s, loanId, now) case Ok((t, _)) => t case Err(_) => s)
    case CreateStep(input, bookId) =>
      (match Books.Create(s, input, bookId) case Ok((t, _)) => t case Err(_) => s)
    case PatchStep(bookId, p) =>
      (match Books.Patch(s, bookId, p) case Ok((t, _)) => t case Err(_) => s)
    case DeleteStep(bookId) => Books.Delete(s, bookId)
    case RegisterStep(input, hash, memberId) =>
      (match AuthRoutes.Register(s, input, hash, memberId) case Ok((t, _)) => t case Err(_) => s)
  }

  /** Every step of the trace mints an id that is fresh when that step runs. */
  predicate Admissible(s: Store, steps: seq<Step>)
    decreases |steps|
  {
    steps == [] || (Fresh(s, steps[0]) && Admissible(Apply(s, steps[0]), steps[1..]))
  }

  /** The store after the whole trace. */
  function Run(s: Store, steps: seq<Step>): Store
    requires Admissible(s, steps)
    decreases |steps|
  {
    if steps == [] then s else Run(Apply(s, steps[0]), steps[1..])
  }

  predicate IsCirculation(step: Step) {
    step.BorrowStep? || step.ReturnStep?
  }

  /** The uniqueness the indexes and lookups rely on: ISBNs among books, emails and ids among members. */
  ghost predicate Consistent(s: Store) {
    IsbnsUnique(s.books) && EmailsUnique(s.members) && MemberIdsUnique(s.members)
  }

  /** Every book has a copy count, and none is negative. */
  ghost predicate ShelvesSound(s: Store) {
    forall b :: b in s.books ==> s.books[b].copies.Some? && s.books[b].copies.value >= 0
  }

  /** Rewriting only a book's copy count keeps ISBNs unique. */
  lemma CopiesUpdateKeepsIsbnsUnique(books: map<Id, Book>, id: Id, copies: Option<int>)
    requires id in books && IsbnsUnique(books)
    ensures IsbnsUnique(books[id := books[id].(copies := copies)])
  {
    PutKeepsIsbnsUnique(books, id, books[id].(copies := copies));
  }

  /** Every single step keeps the store consistent. */
  lemma StepKeepsConsistent(s: Store, step: Step)
    requires Fresh(s, step) && Consistent(s)
    ensures Consistent(Apply(s, step))
  {
    match step
    case BorrowStep(req, now, loanId, isObjectId) =>
      if Loans.BorrowCorrected(s, req, now, loanId, isObjectId).Ok? {
        CopiesUpdateKeepsIsbnsUnique(s.books, req.bookId, Some(s.books[req.bookId].copies.value - 1));
      }
    case ReturnStep(loanId, now) =>
      if Loans.Return(s, loanId, now).Ok? && s.loans[loanId].book in s.books {
        var b := s.loans[loanId].book;
        CopiesUpdateKeepsIsbnsUnique(s.books, b, Some(Loans.CopiesOrZero(s.books[b].copies) + 1));
      }
    case CreateStep(input, bookId) =>
    case PatchStep(bookId, p) =>
    case DeleteStep(bookId) =>
    case RegisterStep(input, hash, memberId) =>
      if AuthRoutes.Register(s, input, hash, memberId).Ok? {
        AuthRoutes.RegisterKeepsMembersUnique(s, input, hash, memberId);
      }
  }

  /** Any admissible trace from a consistent store ends in a consistent store. */
  lemma {:induction false} RunKeepsConsistent(s: Store, steps: seq<Step>)
    requires Admissible(s, steps) && Consistent(s)
    ensures Consistent(Run(s, steps))
    decreases |steps|
  {
    if steps != [] {
      StepKeepsConsistent(s, steps[0]);
      RunKeepsConsistent(Apply(s, steps[0]), steps[1..]);
    }
  }

  /** A borrow takes a copy only from a shelf that has one. */
  lemma BorrowKeepsShelvesSound(s: Store, req: BorrowInput, now: int, loanId: Id)
    requires loanId !in s.loans && ShelvesSound(s) && Loans.Borrow(s, req, now, loanId).Ok?
    ensures ShelvesSound(Loans.Borrow(s, req, now, loanId).value.0)
  {
    var t := Loans.Borrow(s, req, now, loanId).value.0;
    forall b | b in t.books
      ensures t.books[b].copies.Some? && t.books[b].copies.value >= 0
    {
      if b != req.bookId {
        assert t.books[b] == s.books[b];
      }
    }
  }

  /** A return puts a copy back on a shelf that already had a count. */
  lemma ReturnKeepsShelvesSound(s: Store, loanId: Id, now: int)
    requires ShelvesSound(s) && Loans.Return(s, loanId, now).Ok?
    ensures ShelvesSound(Loans.Return(s, loanId, now).value.0)
  {
  }

  /** A created book passed the schema's minimum. */
  lemma CreateKeepsShelvesSound(s: Store, input: BookInput, bookId: Id)
    requires bookId !in s.books && ShelvesSound(s) && Books.Create(s, input, bookId).Ok?
    ensures ShelvesSound(Books.Create(s, input, bookId).value.0)
  {
    var t := Books.Create(s, input, bookId).value.0;
    forall b | b in t.books
      ensures t.books[b].copies.Some? && t.books[b].copies.value >= 0
    {
      if b != bookId {
        assert t.books[b] == s.books[b];
      }
    }
  }

  /** Every step except a PATCH keeps all copy counts present and non-negative. */
  lemma StepKeepsShelvesSound(s: Store, step: Step)
    requires Fresh(s, step) && ShelvesSound(s) && !step.PatchStep?
    ensures ShelvesSound(Apply(s, step))
  {
    match step
    case BorrowStep(req, now, loanId, isObjectId) =>
      if Loans.BorrowCorrected(s, req, now, loanId, isObjectId).Ok? {
        BorrowKeepsShelvesSound(s, req, now, loanId);
      }
    case ReturnStep(loanId, now) =>
      if Loans.Return(s, loanId, now).Ok? {
        ReturnKeepsShelvesSound(s, loanId, now);
      }
    case CreateStep(input, bookId) =>
      if Books.Create(s, input, bookId).Ok? {
        CreateKeepsShelvesSound(s, input, bookId);
      }
    case DeleteStep(bookId) =>
    case RegisterStep(input, hash, memberId) =>
  }

  /**
   * Without a PATCH no copy count ever becomes null or negative: creation
   * enforces the schema's minimum, a borrow needs a copy on the shelf and a
   * return adds one.
   */
  lemma {:induction false} NoPatchKeepsShelvesSound(s: Store, steps: seq<Step>)
    requires Admissible(s, steps) && ShelvesSound(s)
    requires forall i :: 0 <= i < |steps| ==> !steps[i].PatchStep?
    ensures ShelvesSound(Run(s, steps))
    decreases |steps|
  {
    if steps != [] {
      StepKeepsShelvesSound(s, steps[0]);
      NoPatchKeepsShelvesSound(Apply(s, steps[0]), steps[1..]);
    }
  }

  /**
   * A loan, once recorded, is never removed, and once returned it never
   * changes again: no later request can reopen it or restamp it.
   */
  lemma {:induction false} ReturnedLoansAreFinal(s: Store, steps: seq<Step>)
    requires Admissible(s, steps)
    ensures s.loans.Keys <= Run(s, steps).loans.Keys
    ensures forall id :: id in s.loans && !IsOpen(s.loans[id]) ==> Run(s, steps).loans[id] == s.loans[id]
    decreases |steps|
  {
    if steps != [] {
      ReturnedLoansAreFinal(Apply(s, steps[0]), steps[1..]);
    }
  }

  /**
   * After a loan is returned, returning it again fails with 400 "Loan already
   * returned" whatever requests come in between.
   */
  lemma ReturnSucceedsOnce(s: Store, loanId: Id, now: int, steps: seq<Step>, later: int)
    requires Loans.Return(s, loanId, now).Ok?
    requires Admissible(Loans.Return(s, loanId, now).value.0, steps)
    ensures Loans.Return(Run(Loans.Return(s, loanId, now).value.0, steps), loanId, later) == Err(LoanAlreadyReturned)
  {
    ReturnedLoansAreFinal(Loans.Return(s, loanId, now).value.0, steps);
  }

  /** One borrow or return keeps the catalogue's ids and every book's stock. */
  lemma CirculationStepConservesStock(s: Store, step: Step)
    requires Fresh(s, step) && IsCirculation(step)
    ensures Apply(s, step).books.Keys == s.books.Keys
    ensures forall b :: b in s.books ==> Loans.Stock(Apply(s, step), b) == Loans.Stock(s, b)
  {
    match step
    case BorrowStep(req, now, loanId, isObjectId) =>
      if Loans.BorrowCorrected(s, req, now, loanId, isObjectId).Ok? {
        Loans.BorrowConservesStock(s, req, now, loanId);
      }
    case ReturnStep(loanId, now) =>
      if Loans.Return(s, loanId, now).Ok? {
        Loans.ReturnConservesStock(s, loanId, now);
      }
  }

  /**
   * Any run of borrows and returns, successful or refused, leaves the
   * catalogue's ids and every book's copies-plus-open-loans exactly as they
   * were.
   */
  lemma {:induction false} StockConservedByCirculation(s: Store, steps: seq<Step>)
    requires Admissible(s, steps)
    requires forall i :: 0 <= i < |steps| ==> IsCirculation(steps[i])
    ensures Run(s, steps).books.Keys == s.books.Keys
    ensures forall b :: b in s.books ==> Loans.Stock(Run(s, steps), b) == Loans.Stock(s, b)
    decreases |steps|
  {
    if steps != [] {
      CirculationStepConservesStock(s, steps[0]);
      StockConservedByCirculation(Apply(s, steps[0]), steps[1..]);
    }
  }
}

=== FILE: loans.dfy ===
/**
 * The loan routes of routes/loans.js: `POST /borrow`, `POST /:id/return` and
 * `GET /`, each one atomic transition of the store, with the inventory
 * bookkeeping they keep: a book's copies plus its open loans never change.
 */
module Loans {
  import opened Wrappers
  import opened Errors
  import opened Model
  import opened Schemas
  import opened Http
  import Access

  const DayMillis := 24 * 60 * 60 * 1000

  /** `Date.now() + days * 24 * 60 * 60 * 1000`. */
  function DueAt(now: int, days: int): int {
    now + days * DayMillis
  }

  /** The negation of `!book || book.copies < 1`; a null count compares as 0, so it is never available. */
  predicate Available(b: Book) {
    b.copies.Some? && b.copies.value >= 1
  }

  /** `copies || 0`. */
  function CopiesOrZero(copies: Option<int>): int {
    copies.GetOr(0)
  }

  /** The ids of the loans on `book` that are still out. */
  function OpenLoans(loans: map<Id, Loan>, book: Id): set<Id> {
    set id | id in loans && loans[id].book == book && IsOpen(loans[id])
  }

  /** The copies a library owns of a book: those on the shelf plus those lent out. */
  function Stock(s: Store, book: Id): int
    requires book in s.books
  {
    CopiesOrZero(s.books[book].copies) + |OpenLoans(s.loans, book)|
  }

  /**
   * The borrow handler after validation. It fails with "Book unavailable"
   * (status 400) when the book is missing or has no copy on the shelf. Otherwise
   * it takes one copy and records a new open loan due `days` whole days from now;
   * it never checks that the member exists.
   */
  function Borrow(s: Store, req: BorrowInput, now: int, loanId: Id): (r: Result<(Store, Loan), AppError>)
    requires loanId !in s.loans
    ensures r.Err? <==> (req.bookId !in s.books || !Available(s.books[req.bookId]))
    ensures r.Err? ==> r.error == BookUnavailable
    ensures r.Ok? ==>
      var (t, loan) := r.value;
      var before := s.books[req.bookId];
      && t.members == s.members
      && t.books.Keys == s.books.Keys
      && t.books[req.bookId] == before.(copies := Some(before.copies.value - 1))
      && t.books[req.bookId].copies.value >= 0
      && (forall b :: b in s.books && b != req.bookId ==> t.books[b] == s.books[b])
      && t.loans == s.loans[loanId := loan]
      && loan.book == req.bookId && loan.member == req.memberId && IsOpen(loan)
      && loan.borrowedAt == now && loan.dueAt == now + req.days * DayMillis
  {
    if req.bookId !in s.books || !Available(s.books[req.bookId]) then Err(BookUnavailable)
    else
      var book := s.books[req.bookId];
      var loan := NewLoan(req.bookId, req.memberId, DueAt(now, req.days), now);
      var books := s.books[req.bookId := book.(copies := Some(book.copies.value - 1))];
      Ok((s.(books := books, loans := s.loans[loanId := loan]), loan))
  }

  // ---- Casting ids --------------------------------------------------------

  /**
   * Mongoose's `CastError` from `Book.findById` on a string that is not an
   * ObjectId; it has no status, so the reply is 400.
   */
  function BookIdCastError(bookId: string): AppError {
    Raise("Cast to ObjectId failed for value \"" + bookId + "\" (type string) at path \"_id\" for model \"Book\"")
  }

  /** The `ValidationError` of `Loan.create` when `member` cannot be cast to an ObjectId; no status either. */
  function MemberIdCastError(memberId: string): AppError {
    Raise("Loan validation failed: member: Cast to ObjectId failed for value \"" + memberId + "\" (type string) at path \"member\"")
  }

  /**
   * The borrow handler as written, with Mongoose's casting of the two ids
   * (`isObjectId` decides which strings are ObjectIds). The store comes back
   * with every outcome, because one failure happens after a write: the copy is
   * taken and saved before `Loan.create` casts `memberId`, so a malformed
   * member id is refused with the book already one copy short.
   */
  function BorrowAsWritten(s: Store, req: BorrowInput, now: int, loanId: Id, isObjectId: string -> bool): (r: (Store, Result<Loan, AppError>))
    requires loanId !in s.loans
    ensures var intended := Borrow(s, req, now, loanId);
      && (r.1.Ok? <==> isObjectId(req.bookId) && isObjectId(req.memberId) && intended.Ok?)
      && (r.1.Ok? ==> (r.0, r.1.value) == intended.value)
      && (!isObjectId(req.bookId) ==> r == (s, Err(BookIdCastError(req.bookId))))
      && (isObjectId(req.bookId) && intended.Err? ==> r == (s, Err(BookUnavailable)))
      && (isObjectId(req.bookId) && !isObjectId(req.memberId) && intended.Ok? ==>
            r == (s.(books := intended.value.0.books), Err(MemberIdCastError(req.memberId))))
  {
    if !isObjectId(req.bookId) then (s, Err(BookIdCastError(req.bookId)))
    else if req.bookId !in s.books || !Available(s.books[req.bookId]) then (s, Err(BookUnavailable))
    else
      var book := s.books[req.bookId];
      var taken := s.(books := s.books[req.bookId := book.(copies := Some(book.copies.value - 1))]);
      if !isObjectId(req.memberId) then (taken, Err(MemberIdCastError(req.memberId)))
      else
        var loan := NewLoan(req.bookId, req.memberId, DueAt(now, req.days), now);
        (taken.(loans := s.loans[loanId := loan]), Ok(loan))
  }

  /**
   * The borrow handler as evidently intended: both ids are cast before
   * anything is written, so every refusal leaves the store as it was.
   */
  function BorrowCorrected(s: Store, req: BorrowInput, now: int, loanId: Id, isObjectId: string -> bool): (r: Result<(Store, Loan), AppError>)
    requires loanId !in s.loans
    ensures var intended := Borrow(s, req, now, loanId);
      && (r.Ok? <==> isObjectId(req.bookId) && isObjectId(req.memberId) && intended.Ok?)
      && (r.Ok? ==> r == intended)
      && (!isObjectId(req.bookId) ==> r == Err(BookIdCastError(req.bookId)))
      && (isObjectId(req.bookId) && intended.Err? ==> r == Err(BookUnavailable))
      && (isObjectId(req.bookId) && !isObjectId(req.memberId) && intended.Ok? ==>
            r == Err(MemberIdCastError(req.memberId)))
    ensures r.Err? ==> r.error.status.None?
  {
    if !isObjectId(req.bookId) then Err(BookIdCastError(req.bookId))
    else if req.bookId !in s.books || !Available(s.books[req.bookId]) then Err(BookUnavailable)
    else if !isObjectId(req.memberId) then Err(MemberIdCastError(req.memberId))
    else Borrow(s, req, now, loanId)
  }

  /**
   * The return handler. An unknown loan is 404 "Loan not found"; a loan that
   * already has `returnedAt` is 400 "Loan already returned". Otherwise the loan
   * is stamped with `now` and, only if its book still exists, that book gets
   * `(copies || 0) + 1`.
   */
  function Return(s: Store, loanId: Id, now: int): (r: Result<(Store, Loan), AppError>)
    ensures loanId !in s.loans ==> r == Err(LoanNotFound)
    ensures loanId in s.loans && !IsOpen(s.loans[loanId]) ==> r == Err(LoanAlreadyReturned)
    ensures r.Ok? <==> (loanId in s.loans && IsOpen(s.loans[loanId]))
    ensures r.Ok? ==>
      var (t, loan) := r.value;
      var prior := s.loans[loanId];
      && loan == prior.(returnedAt := Some(now))
      && t.loans == s.loans[loanId := loan]
      && t.members == s.members
      && (prior.book in s.books ==>
            t.books == s.books[prior.book := s.books[prior.book].(copies := Some(CopiesOrZero(s.books[prior.book].copies) + 1))])
      && (prior.book !in s.books ==> t.books == s.books)
  {
    if loanId !in s.loans then Err(LoanNotFound)
    else
      var prior := s.loans[loanId];
      if prior.returnedAt.Some? then Err(LoanAlreadyReturned)
      else
        var loan := prior.(returnedAt := Some(now));
        var books :=
          if prior.book in s.books then
            var book := s.books[prior.book];
            s.books[prior.book := book.(copies := Some(CopiesOrZero(book.copies) + 1))]
          else s.books;
        Ok((s.(books := books, loans := s.loans[loanId := loan]), loan))
  }

  // ---- Open-loan counting -------------------------------------------------

  /** Recording a new open loan on `book` adds exactly that loan to its open set and no other book's. */
  lemma OpenLoansAfterInsert(loans: map<Id, Loan>, id: Id, loan: Loan, b: Id)
    requires id !in loans && IsOpen(loan)
    ensures loan.book == b ==> OpenLoans(loans[id := loan], b) == OpenLoans(loans, b) + {id}
    ensures loan.book != b ==> OpenLoans(loans[id := loan], b) == OpenLoans(loans, b)
    ensures loan.book == b ==> |OpenLoans(loans[id := loan], b)| == |OpenLoans(loans, b)| + 1
  {
    if loan.book == b {
      assert id !in OpenLoans(loans, b);
    }
  }

  /** Closing an open loan on `book` removes exactly that loan from its open set and no other book's. */
  lemma OpenLoansAfterClose(loans: map<Id, Loan>, id: Id, t: int, b: Id)
    requires id in loans && IsOpen(loans[id])
    ensures var closed := loans[id := loans[id].(returnedAt := Some(t))];
      && (loans[id].book == b ==> OpenLoans(closed, b) == OpenLoans(loans, b) - {id})
      && (loans[id].book != b ==> OpenLoans(closed, b) == OpenLoans(loans, b))
      && (loans[id].book == b ==> |OpenLoans(closed, b)| == |OpenLoans(loans, b)| - 1)
  {
    if loans[id].book == b {
      assert id in OpenLoans(loans, b);
    }
  }

  // ---- Properties of the transitions --------------------------------------

  /** A borrow keeps every book's copies plus open loans unchanged. */
  lemma BorrowConservesStock(s: Store, req: BorrowInput, now: int, loanId: Id)
    requires loanId !in s.loans
    requires Borrow(s, req, now, loanId).Ok?
    ensures var t := Borrow(s, req, now, loanId).value.0;
      forall b :: b in s.books ==> b in t.books && Stock(t, b) == Stock(s, b)
  {
    var (t, loan) := Borrow(s, req, now, loanId).value;
    forall b | b in s.books
      ensures b in t.books && Stock(t, b) == Stock(s, b)
    {
      OpenLoansAfterInsert(s.loans, loanId, loan, b);
    }
  }

  /**
   * As written, a borrow with a well-formed book id of a book on the shelf and
   * a malformed member id is refused, records no loan, and still leaves the
   * library owning one copy fewer of that book.
   */
  lemma MalformedMemberLosesCopy(s: Store, req: BorrowInput, now: int, loanId: Id, isObjectId: string -> bool)
    requires loanId !in s.loans
    requires isObjectId(req.bookId) && !isObjectId(req.memberId)
    requires req.bookId in s.books && Available(s.books[req.bookId])
    ensures var (t, r) := BorrowAsWritten(s, req, now, loanId, isObjectId);
      && r.Err? && t.loans == s.loans
      && req.bookId in t.books && Stock(t, req.bookId) == Stock(s, req.bookId) - 1
  {
  }

  /** The corrected borrow keeps every book's copies plus open loans, whether it succeeds or is refused. */
  lemma BorrowCorrectedConservesStock(s: Store, req: BorrowInput, now: int, loanId: Id, isObjectId: string -> bool)
    requires loanId !in s.loans
    ensures var t := match BorrowCorrected(s, req, now, loanId, isObjectId) case Ok((t, _)) => t case Err(_) => s;
      t.books.Keys == s.books.Keys && forall b :: b in s.books ==> Stock(t, b) == Stock(s, b)
  {
    if BorrowCorrected(s, req, now, loanId, isObjectId).Ok? {
      BorrowConservesStock(s, req, now, loanId);
    }
  }

  /** A return keeps every remaining book's copies plus open loans unchanged. */
  lemma ReturnConservesStock(s: Store, loanId: Id, now: int)
    requires Return(s, loanId, now).Ok?
    ensures var t := Return(s, loanId, now).value.0;
      t.books.Keys == s.books.Keys && forall b :: b in s.books ==> Stock(t, b) == Stock(s, b)
  {
    var t := Return(s, loanId, now).value.0;
    forall b | b in s.books
      ensures Stock(t, b) == Stock(s, b)
    {
      OpenLoansAfterClose(s.loans, loanId, now, b);
    }
  }

  /** Returning the loan a borrow just made gives the catalogue back exactly as it was. */
  lemma BorrowThenReturnRestoresBooks(s: Store, req: BorrowInput, now: int, loanId: Id, later: int)
    requires loanId !in s.loans
    requires Borrow(s, req, now, loanId).Ok?
    ensures var t := Borrow(s, req, now, loanId).value.0;
      Return(t, loanId, later).Ok? && Return(t, loanId, later).value.0.books == s.books
  {
    var t := Borrow(s, req, now, loanId).value.0;
    assert t.books[req.bookId := s.books[req.bookId]] == s.books;
  }

  /** Once a return succeeds, the same loan can never be returned again: the next attempt is 400. */
  lemma SecondReturnFails(s: Store, loanId: Id, now: int, later: int)
    requires Return(s, loanId, now).Ok?
    ensures Return(Return(s, loanId, now).value.0, loanId, later) == Err(LoanAlreadyReturned)
  {
  }

  /** Borrowing never consults the members: with any member list the verdict is the same. */
  lemma BorrowIgnoresMembers(s: Store, members: seq<Member>, req: BorrowInput, now: int, loanId: Id)
    requires loanId !in s.loans
    ensures Borrow(s.(members := members), req, now, loanId).Ok? == Borrow(s, req, now, loanId).Ok?
    ensures Borrow(s, req, now, loanId).Ok? ==>
      Borrow(s.(members := members), req, now, loanId).value.1 == Borrow(s, req, now, loanId).value.1
  {
  }

  // ---- Routes ----------------------------------------------------------------

  /**
   * `POST /api/loans/borrow`: `requireAuth`, then `validate(schemas.borrow)`,
   * then the corrected handler, which casts both ids before writing. Only a
   * successful borrow (201) changes the store.
   */
  function PostBorrow(s: Store, req: Request, verify: string -> Option<Access.Claims>, now: int, loanId: Id,
                      isObjectId: string -> bool, numeral: string -> Option<real>): (o: Outcome)
    requires loanId !in s.loans
    ensures Access.RequireAuth(s, req.authorization, verify).Err? ==> o == Fail(s, Unauthorized)
    ensures o.response.status == 201 <==>
      (Access.RequireAuth(s, req.authorization, verify).Ok? && BorrowSchema(req.body, numeral).Valid?
       && BorrowCorrected(s, BorrowSchema(req.body, numeral).value, now, loanId, isObjectId).Ok?)
    ensures o.response.status != 201 ==> o.store == s && o.response.payload.Message?
    ensures o.response.status == 201 ==>
      var (t, loan) := BorrowCorrected(s, BorrowSchema(req.body, numeral).value, now, loanId, isObjectId).value;
      o.store == t && o.response.payload == LoanDoc(loanId, loan)
  {
    var user := Access.RequireAuth(s, req.authorization, verify);
    if user.Err? then Fail(s, user.error)
    else
      var input := Validate(BorrowSchema(req.body, numeral));
      if input.Err? then Fail(s, input.error)
      else
        var borrowed := BorrowCorrected(s, input.value, now, loanId, isObjectId);
        if borrowed.Err? then Fail(s, borrowed.error)
        else Outcome(borrowed.value.0, Response(201, LoanDoc(loanId, borrowed.value.1)))
  }

  /**
   * `POST /api/loans/:id/return`: `requireAuth`, then the handler; 200 with the
   * stamped loan, its `book` populated with the document after the increment,
   * or null when the book was deleted.
   */
  function PostReturn(s: Store, authorization: Option<string>, loanId: Id, verify: string -> Option<Access.Claims>, now: int): (o: Outcome)
    ensures Access.RequireAuth(s, authorization, verify).Err? ==> o == Fail(s, Unauthorized)
    ensures Access.RequireAuth(s, authorization, verify).Ok? && loanId !in s.loans ==>
      o == Outcome(s, Response(404, Message("Loan not found")))
    ensures Access.RequireAuth(s, authorization, verify).Ok? && loanId in s.loans && !IsOpen(s.loans[loanId]) ==>
      o == Outcome(s, Response(400, Message("Loan already returned")))
    ensures o.response.status == 200 <==>
      (Access.RequireAuth(s, authorization, verify).Ok? && loanId in s.loans && IsOpen(s.loans[loanId]))
    ensures o.response.status != 200 ==> o.store == s
    ensures o.response.status == 200 ==>
      var (t, loan) := Return(s, loanId, now).value;
      && o.store == t
      && o.response.payload == PopulatedLoanDoc(loanId, loan, if loan.book in t.books then Some(t.books[loan.book]) else None)
  {
    match Access.RequireAuth(s, authorization, verify)
    case Err(e) => Fail(s, e)
    case Ok(_) =>
      match Return(s, loanId, now)
      case Err(e) => Fail(s, e)
      case Ok((t, loan)) =>
        var book := if loan.book in t.books then Some(t.books[loan.book]) else None;
        Outcome(t, Response(200, PopulatedLoanDoc(loanId, loan, book)))
  }

  /** A loan with its `book` and `member` refs populated; a deleted document populates as null. */
  function Populate(s: Store, loan: Loan): (v: LoanView)
    ensures v.loan == loan
    ensures v.book.Some? <==> loan.book in s.books
    ensures v.book.Some? ==> v.book.value == s.books[loan.book]
    ensures v.member.Some? <==> exists i :: 0 <= i < |s.members| && s.members[i].id == loan.member
    ensures v.member.Some? ==>
      exists i :: 0 <= i < |s.members| && s.members[i] == v.member.value && v.member.value.id == loan.member
        && forall j :: 0 <= j < i ==> s.members[j].id != loan.member
  {
    LoanView(loan,
             if loan.book in s.books then Some(s.books[loan.book]) else None,
             match FindMember(s.members, ById, loan.member)
             case Some(i) => Some(s.members[i])
             case None => None)
  }

  /** `GET /api/loans`: every loan, populated, without authentication; the store is untouched. */
  function GetLoans(s: Store): (o: Outcome)
    ensures o.store == s && o.response.status == 200
    ensures o.response.payload.LoanList? && o.response.payload.loans.Keys == s.loans.Keys
    ensures forall id :: id in s.loans ==> o.response.payload.loans[id] == Populate(s, s.loans[id])
    ensures forall id :: id in s.loans ==> o.response.payload.loans[id].loan == s.loans[id]
  {
    Outcome(s, Response(200, LoanList(map id | id in s.loans :: Populate(s, s.loans[id]))))
  }
}

=== FILE: model.dfy ===
/**
 * The three document kinds of src/model.js (Book, Member, Loan), the field
 * rules their schemas attach (trim, lowercase, defaults, minimums, required
 * paths, unique indexes), the password pre-save hook, and the abstract store
 * that holds the three collections.
 */
module Model {
  import opened Wrappers
  import opened Errors
  import Text

  /** A document id (an ObjectId, as the string a request carries). */
  type Id = string

  /** The optional `isbn` path: absent, explicitly null, or a string (possibly empty). */
  datatype Isbn = NoIsbn | NullIsbn | IsbnCode(code: string)

  /** `copies` is `None` when a schema-less PATCH stored null in it. */
  datatype Book = Book(title: string, author: string, isbn: Isbn, copies: Option<int>)

  /** `password` holds the bcrypt hash; it is absent for a member created without one. */
  datatype Member = Member(id: Id, name: string, email: string, password: Option<string>)

  /** A member as the API shows it: never the password. */
  datatype UserView = UserView(id: Id, name: string, email: string)

  /** Times are milliseconds since the epoch; `returnedAt` is absent while the loan is open. */
  datatype Loan = Loan(book: Id, member: Id, borrowedAt: int, dueAt: int, returnedAt: Option<int>)

  /**
   * The database: books and loans keyed by id; members in their natural
   * (insertion) order, which is the order `findOne` scans.
   */
  datatype Store = Store(books: map<Id, Book>, members: seq<Member>, loans: map<Id, Loan>)

  const DefaultCopies := 1
  const MinCopies := 0
  const MinPasswordLength := 6

  function View(m: Member): UserView {
    UserView(m.id, m.name, m.email)
  }

  // ---- Book -------------------------------------------------------------

  /** A book document built from a request: `title` and `author` pass through the `trim` setter. */
  function NewBook(title: string, author: string, isbn: Isbn, copies: int): Book {
    Book(Text.Trim(title), Text.Trim(author), isbn, Some(copies))
  }

  /** The schema's validators: both required strings present after trimming, and `copies` at least 0 unless null. */
  predicate BookValid(b: Book) {
    b.title != "" && b.author != "" && (b.copies.None? || b.copies.value >= MinCopies)
  }

  function RequiredMessage(path: string): string {
    path + ": Path `" + path + "` is required."
  }

  function IntText(n: int): string {
    if n < 0 then "-" + Text.Decimal(-n) else Text.Decimal(n)
  }

  /** The failing validators of a new book document, in schema path order, as Mongoose words them. */
  function BookViolations(b: Book): (r: seq<string>)
    ensures r == [] <==> BookValid(b)
    ensures |r| <= 3
  {
    (if b.title == "" then [RequiredMessage("title")] else [])
    + (if b.author == "" then [RequiredMessage("author")] else [])
    + (if b.copies.Some? && b.copies.value < MinCopies
       then ["copies: Path `copies` (" + IntText(b.copies.value) + ") is less than minimum allowed value (0)."]
       else [])
  }

  function Join(parts: seq<string>, separator: string): string {
    if |parts| == 0 then "" else if |parts| == 1 then parts[0] else parts[0] + separator + Join(parts[1..], separator)
  }

  /** A Mongoose `ValidationError`; it carries no status, so it reaches the client as 400. */
  function ValidationFailed(modelName: string, violations: seq<string>): AppError {
    Raise(modelName + " validation failed: " + Join(violations, ", "))
  }

  /** The unique index on `isbn` is sparse: only a document that has the field is indexed, null included. */
  predicate Indexed(i: Isbn) {
    !i.NoIsbn?
  }

  ghost predicate IsbnsUnique(books: map<Id, Book>) {
    forall a, b :: a in books && b in books && a != b && Indexed(books[a].isbn) ==> books[a].isbn != books[b].isbn
  }

  /** Writing `isbn` into document `id` would collide with another indexed document. */
  predicate IsbnTaken(books: map<Id, Book>, id: Id, isbn: Isbn) {
    Indexed(isbn) && exists other :: other in books && other != id && books[other].isbn == isbn
  }

  /** MongoDB's duplicate-key error (E11000), abbreviated; it carries no status. */
  const DuplicateIsbn := Raise("E11000 duplicate key error collection: books index: isbn_1")

  /** Storing a book whose ISBN the index accepts keeps ISBNs unique. */
  lemma PutKeepsIsbnsUnique(books: map<Id, Book>, id: Id, b: Book)
    requires !IsbnTaken(books, id, b.isbn)
    ensures IsbnsUnique(books) ==> IsbnsUnique(books[id := b])
  {
  }

  // ---- Member -----------------------------------------------------------

  /** The `lowercase` and `trim` setters of the `email` path; they also apply to query filters. */
  function NormaliseEmail(e: string): string {
    Text.Trim(Text.Lower(e))
  }

  /** A stored email is a fixed point of the setters, has no padding and no upper-case ASCII letter. */
  lemma NormalisedEmailIsCanonical(e: string)
    ensures NormaliseEmail(NormaliseEmail(e)) == NormaliseEmail(e)
    ensures var n := NormaliseEmail(e); n == [] || (!Text.IsSpace(n[0]) && !Text.IsSpace(n[|n| - 1]))
    ensures forall i :: 0 <= i < |NormaliseEmail(e)| ==> !('A' <= NormaliseEmail(e)[i] <= 'Z')
  {
    var l := Text.Lower(e);
    calc {
      NormaliseEmail(NormaliseEmail(e));
      Text.Trim(Text.Lower(Text.Trim(l)));
      { Text.LowerTrimCommute(l); }
      Text.Trim(Text.Trim(Text.Lower(l)));
      { Text.LowerIdempotent(e); }
      Text.Trim(Text.Trim(l));
      { Text.TrimIdempotent(l); }
      Text.Trim(l);
    }
    Text.LowerTrimCommute(e);
    Text.LowerHasNoUpper(Text.Trim(e));
  }

  /** The member schema's validators; `password` is checked before the pre-save hook hashes it. */
  function MemberViolations(name: string, email: string, password: Option<string>): (r: seq<string>)
    ensures r == [] <==> name != "" && email != "" && (password.None? || Text.Utf16Length(password.value) >= MinPasswordLength)
  {
    (if name == "" then [RequiredMessage("name")] else [])
    + (if email == "" then [RequiredMessage("email")] else [])
    + (if password.Some? && Text.Utf16Length(password.value) < MinPasswordLength
       then ["password: Path `password` (`" + password.value + "`) is shorter than the minimum allowed length (6)."]
       else [])
  }

  /** bcryptjs refuses to hash a value that is not a string. */
  const HashIllegalArguments := Raise("Illegal arguments: undefined, string")

  /**
   * The pre-save hook: the stored password is replaced by its hash exactly
   * when the `password` path was set or modified; otherwise it is kept.
   */
  function HashOnSave(password: Option<string>, modified: bool, hash: string -> string): Result<Option<string>, AppError> {
    if !modified then Ok(password)
    else match password
      case Some(p) => Ok(Some(hash(p)))
      case None => Err(HashIllegalArguments)
  }

  /** A saved password differs from what was assigned only when the path was modified, and then it is the hash. */
  lemma RehashOnlyWhenModified(password: Option<string>, modified: bool, hash: string -> string)
    ensures var r := HashOnSave(password, modified, hash);
      && (r.Ok? <==> !modified || password.Some?)
      && (r.Ok? && r.value != password ==> modified)
      && (modified && password.Some? ==> r == Ok(Some(hash(password.value))))
  {
  }

  ghost predicate EmailsUnique(ms: seq<Member>) {
    forall i, j :: 0 <= i < j < |ms| ==> ms[i].email != ms[j].email
  }

  ghost predicate MemberIdsUnique(ms: seq<Member>) {
    forall i, j :: 0 <= i < j < |ms| ==> ms[i].id != ms[j].id
  }

  /** The member path a query filters on. */
  datatype MemberKey = ById | ByEmail

  function KeyOf(m: Member, key: MemberKey): string {
    match key
    case ById => m.id
    case ByEmail => m.email
  }

  /** `findOne`/`findById`: the first member, in natural order, whose `key` path equals `value`. */
  function FindMember(ms: seq<Member>, key: MemberKey, value: string): (r: Option<nat>)
    ensures r.Some? ==> r.value < |ms| && KeyOf(ms[r.value], key) == value
    ensures r.Some? ==> forall j :: 0 <= j < r.value ==> KeyOf(ms[j], key) != value
    ensures r.None? <==> forall j :: 0 <= j < |ms| ==> KeyOf(ms[j], key) != value
  {
    if |ms| == 0 then None
    else if KeyOf(ms[0], key) == value then Some(0)
    else match FindMember(ms[1..], key, value)
      case None => None
      case Some(k) => Some(k + 1)
  }

  // ---- Loan -------------------------------------------------------------

  /** `Loan.create`: the required refs and due time, `borrowedAt` defaulting to now, no `returnedAt`. */
  function NewLoan(book: Id, member: Id, dueAt: int, now: int): Loan {
    Loan(book, member, now, dueAt, None)
  }

  predicate IsOpen(l: Loan) {
    l.returnedAt.None?
  }
}

=== FILE: schemas.dfy ===
/**
 * The request-body schemas of src/utils.js (book, member, borrow, register,
 * login) as Joi applies them with its default options (abort on the first
 * error, unknown keys refused, defaults filled in), and the `validate`
 * middleware that runs one of them over `req.body`.
 */
module Schemas {
  import opened Wrappers
  import opened Errors
  import opened Model
  import Text

  /** A JSON value of a parsed request body, down to the detail the schemas inspect. */
  datatype Raw = JNull | JBool(b: bool) | JNum(x: real) | JStr(s: string) | JArray | JObject

  /** The parsed body: an object's members in source order, or anything that is not an object. */
  datatype Body = Fields(fields: seq<(string, Raw)>) | NotAnObject

  /** Joi's verdict: the normalised value, or the message of the first failing rule. */
  datatype Checked<+T> = Valid(value: T) | Invalid(message: string) {

    predicate IsFailure() {
      Invalid?
    }

    function PropagateFailure<U>(): Checked<U>
      requires Invalid?
    {
      Invalid(message)
    }

    function Extract(): T
      requires Valid?
    {
      value
    }
  }

  datatype BookInput = BookInput(title: string, author: string, isbn: Isbn, copies: int)
  datatype MemberInput = MemberInput(name: string, email: string)
  datatype BorrowInput = BorrowInput(bookId: Id, memberId: Id, days: int)
  datatype RegisterInput = RegisterInput(name: string, email: string, password: string)
  datatype LoginInput = LoginInput(email: string, password: string)

  const DefaultDays := 7
  const MinDays := 1
  const MaxDays := 30
  const MaxSafeInteger := 9007199254740991

  const BookKeys := {"title", "author", "isbn", "copies"}
  const MemberKeys := {"name", "email"}
  const BorrowKeys := {"bookId", "memberId", "days"}
  const RegisterKeys := {"name", "email", "password"}
  const LoginKeys := {"email", "password"}

  const NotAnObjectMessage := "\"value\" must be of type object"

  /** The value of `key`; when the key repeats, the last occurrence wins, as in `JSON.parse`. */
  function Lookup(fields: seq<(string, Raw)>, key: string): (r: Option<Raw>)
    ensures r.None? <==> forall i :: 0 <= i < |fields| ==> fields[i].0 != key
    ensures r.Some? ==> exists i :: 0 <= i < |fields| && fields[i] == (key, r.value)
                                   && forall j :: i < j < |fields| ==> fields[j].0 != key
  {
    if |fields| == 0 then None
    else if fields[|fields| - 1].0 == key then Some(fields[|fields| - 1].1)
    else Lookup(fields[..|fields| - 1], key)
  }

  /** The first key, in source order, that the schema does not declare. */
  function UnknownKey(fields: seq<(string, Raw)>, known: set<string>): (r: Option<string>)
    ensures r.None? <==> forall i :: 0 <= i < |fields| ==> fields[i].0 in known
    ensures r.Some? ==> r.value !in known
    ensures r.Some? ==> exists i :: 0 <= i < |fields| && fields[i].0 == r.value
                                   && forall j :: 0 <= j < i ==> fields[j].0 in known
  {
    if |fields| == 0 then None
    else if fields[0].0 !in known then Some(fields[0].0)
    else UnknownKey(fields[1..], known)
  }

  function Label(key: string): (r: string)
    ensures |r| > 0
  {
    "\"" + key + "\""
  }

  /** The object rule checked after every declared key: no undeclared key may appear. */
  function NoUnknownKeys(fields: seq<(string, Raw)>, known: set<string>): (r: Checked<()>)
    ensures r.Valid? <==> forall i :: 0 <= i < |fields| ==> fields[i].0 in known
    ensures r.Invalid? ==> |r.message| > 0
  {
    match UnknownKey(fields, known)
    case None => Valid(())
    case Some(key) => Invalid(Label(key) + " is not allowed")
  }

  /** `Joi.string().required()`: present, a string, and (by Joi's default) not empty. */
  function RequiredString(fields: seq<(string, Raw)>, key: string): (r: Checked<string>)
    ensures r.Valid? <==> IsNonEmptyString(Lookup(fields, key))
    ensures r.Valid? ==> r.value != "" && Lookup(fields, key) == Some(JStr(r.value))
    ensures r.Invalid? ==> |r.message| > 0
  {
    match Lookup(fields, key)
    case None => Invalid(Label(key) + " is required")
    case Some(JStr(s)) =>
      if s == "" then Invalid(Label(key) + " is not allowed to be empty") else Valid(s)
    case Some(_) => Invalid(Label(key) + " must be a string")
  }

  /** `Joi.string().email().required()`; the address grammar is the abstract `isEmail`. */
  function EmailString(fields: seq<(string, Raw)>, key: string, isEmail: string -> bool): (r: Checked<string>)
    ensures r.Valid? <==> RequiredString(fields, key).Valid? && isEmail(RequiredString(fields, key).value)
    ensures r.Valid? ==> r.value == RequiredString(fields, key).value
    ensures r.Invalid? ==> |r.message| > 0
  {
    var s :- RequiredString(fields, key);
    if isEmail(s) then Valid(s) else Invalid(Label(key) + " must be a valid email")
  }

  /** `Joi.string().min(n).required()`; the length is JavaScript's, in UTF-16 code units. */
  function LongString(fields: seq<(string, Raw)>, key: string, min: nat): (r: Checked<string>)
    ensures r.Valid? <==> RequiredString(fields, key).Valid? && Text.Utf16Length(RequiredString(fields, key).value) >= min
    ensures r.Valid? ==> r.value == RequiredString(fields, key).value
    ensures r.Invalid? ==> |r.message| > 0
  {
    var s :- RequiredString(fields, key);
    if Text.Utf16Length(s) >= min then Valid(s)
    else Invalid(Label(key) + " length must be at least " + Text.Decimal(min) + " characters long")
  }

  /** `Joi.string().allow('', null).optional()`: absent, null, or any string, the empty one included. */
  function OptionalIsbn(fields: seq<(string, Raw)>, key: string): (r: Checked<Isbn>)
    ensures r.Valid? <==> Lookup(fields, key).None? || Lookup(fields, key).value.JNull? || Lookup(fields, key).value.JStr?
    ensures Lookup(fields, key).None? ==> r == Valid(NoIsbn)
    ensures Lookup(fields, key) == Some(JNull) ==> r == Valid(NullIsbn)
    ensures Lookup(fields, key).Some? && Lookup(fields, key).value.JStr? ==> r == Valid(IsbnCode(Lookup(fields, key).value.s))
    ensures r.Invalid? ==> |r.message| > 0
  {
    match Lookup(fields, key)
    case None => Valid(NoIsbn)
    case Some(JNull) => Valid(NullIsbn)
    case Some(JStr(s)) => Valid(IsbnCode(s))
    case Some(_) => Invalid(Label(key) + " must be a string")
  }

  predicate IsWhole(x: real) {
    x == x.Floor as real
  }

  predicate IsNonEmptyString(v: Option<Raw>) {
    v.Some? && v.value.JStr? && v.value.s != ""
  }

  /**
   * The number Joi's `number()` sees in a value under its default `convert`
   * option: a JSON number as it is, a string through `numeral` (Joi's numeric
   * string grammar, left abstract), anything else none.
   */
  function NumberOf(v: Raw, numeral: string -> Option<real>): Option<real> {
    match v
    case JNum(x) => Some(x)
    case JStr(s) => numeral(s)
    case _ => None
  }

  /** A number that is whole and lies in [lo, hi]. */
  predicate IsWholeIn(x: Option<real>, lo: real, hi: real) {
    x.Some? && IsWhole(x.value) && lo <= x.value <= hi
  }

  /**
   * `Joi.number().integer().min(min)[.max(max)].default(d)`: absent gives the
   * default; otherwise a JSON number or a numeric string (a form field such
   * as "14") that is a safe whole number within the bounds, never clamped.
   */
  function Integer(fields: seq<(string, Raw)>, key: string, default: int, min: nat, max: Option<nat>,
                   numeral: string -> Option<real>): (r: Checked<int>)
    requires max.None? || max.value <= MaxSafeInteger
    ensures Lookup(fields, key).None? ==> r == Valid(default)
    ensures Lookup(fields, key).Some? ==>
      (r.Valid? <==> IsWholeIn(NumberOf(Lookup(fields, key).value, numeral), min as real,
                               if max.Some? then max.value as real else MaxSafeInteger as real))
    ensures Lookup(fields, key).Some? && r.Valid? ==> NumberOf(Lookup(fields, key).value, numeral) == Some(r.value as real)
    ensures Lookup(fields, key).Some? && NumberOf(Lookup(fields, key).value, numeral).None? ==>
      r == Invalid(Label(key) + " must be a number")
    ensures r.Invalid? ==> |r.message| > 0
  {
    match Lookup(fields, key)
    case None => Valid(default)
    case Some(v) =>
      match NumberOf(v, numeral)
      case None => Invalid(Label(key) + " must be a number")
      case Some(x) =>
        if x > MaxSafeInteger as real || x < -MaxSafeInteger as real then Invalid(Label(key) + " must be a safe number")
        else if !IsWhole(x) then Invalid(Label(key) + " must be an integer")
        else if x.Floor < min then Invalid(Label(key) + " must be greater than or equal to " + Text.Decimal(min))
        else if max.Some? && x.Floor > max.value then Invalid(Label(key) + " must be less than or equal to " + Text.Decimal(max.value))
        else Valid(x.Floor)
  }

  /** `schemas.book`. */
  function BookSchema(body: Body, numeral: string -> Option<real>): (r: Checked<BookInput>)
    ensures r.Valid? <==>
      (body.Fields? && RequiredString(body.fields, "title").Valid? && RequiredString(body.fields, "author").Valid?
       && OptionalIsbn(body.fields, "isbn").Valid? && Integer(body.fields, "copies", DefaultCopies, MinCopies, None, numeral).Valid?
       && NoUnknownKeys(body.fields, BookKeys).Valid?)
    ensures r.Valid? ==>
      r.value == BookInput(RequiredString(body.fields, "title").value, RequiredString(body.fields, "author").value,
                           OptionalIsbn(body.fields, "isbn").value,
                           Integer(body.fields, "copies", DefaultCopies, MinCopies, None, numeral).value)
    ensures r.Valid? ==> r.value.title != "" && r.value.author != "" && r.value.copies >= MinCopies
    ensures r.Valid? ==> body.Fields? && (Lookup(body.fields, "copies").None? ==> r.value.copies == DefaultCopies)
    ensures r.Valid? ==> body.Fields? && forall i :: 0 <= i < |body.fields| ==> body.fields[i].0 in BookKeys
    ensures r.Invalid? ==> |r.message| > 0
  {
    match body
    case NotAnObject => Invalid(NotAnObjectMessage)
    case Fields(f) =>
      var title :- RequiredString(f, "title");
      var author :- RequiredString(f, "author");
      var isbn :- OptionalIsbn(f, "isbn");
      var copies :- Integer(f, "copies", DefaultCopies, MinCopies, None, numeral);
      var known :- NoUnknownKeys(f, BookKeys);
      Valid(BookInput(title, author, isbn, copies))
  }

  /** `schemas.member`. */
  function MemberSchema(body: Body, isEmail: string -> bool): (r: Checked<MemberInput>)
    ensures r.Valid? <==>
      (body.Fields? && RequiredString(body.fields, "name").Valid? && EmailString(body.fields, "email", isEmail).Valid?
       && NoUnknownKeys(body.fields, MemberKeys).Valid?)
    ensures r.Valid? ==>
      r.value == MemberInput(RequiredString(body.fields, "name").value, RequiredString(body.fields, "email").value)
    ensures r.Valid? ==> r.value.name != "" && r.value.email != "" && isEmail(r.value.email)
    ensures r.Invalid? ==> |r.message| > 0
  {
    match body
    case NotAnObject => Invalid(NotAnObjectMessage)
    case Fields(f) =>
      var name :- RequiredString(f, "name");
      var email :- EmailString(f, "email", isEmail);
      var known :- NoUnknownKeys(f, MemberKeys);
      Valid(MemberInput(name, email))
  }

  /** `schemas.borrow`. */
  function BorrowSchema(body: Body, numeral: string -> Option<real>): (r: Checked<BorrowInput>)
    ensures r.Valid? <==>
      (body.Fields? && RequiredString(body.fields, "bookId").Valid? && RequiredString(body.fields, "memberId").Valid?
       && Integer(body.fields, "days", DefaultDays, MinDays, Some(MaxDays), numeral).Valid?
       && NoUnknownKeys(body.fields, BorrowKeys).Valid?)
    ensures r.Valid? ==>
      r.value == BorrowInput(RequiredString(body.fields, "bookId").value, RequiredString(body.fields, "memberId").value,
                             Integer(body.fields, "days", DefaultDays, MinDays, Some(MaxDays), numeral).value)
    ensures r.Valid? ==> r.value.bookId != "" && r.value.memberId != "" && MinDays <= r.value.days <= MaxDays
    ensures r.Valid? ==> body.Fields? && (Lookup(body.fields, "days").None? ==> r.value.days == DefaultDays)
    ensures r.Invalid? ==> |r.message| > 0
  {
    match body
    case NotAnObject => Invalid(NotAnObjectMessage)
    case Fields(f) =>
      var bookId :- RequiredString(f, "bookId");
      var memberId :- RequiredString(f, "memberId");
      var days :- Integer(f, "days", DefaultDays, MinDays, Some(MaxDays), numeral);
      var known :- NoUnknownKeys(f, BorrowKeys);
      Valid(BorrowInput(bookId, memberId, days))
  }

  /** `schemas.register`. */
  function RegisterSchema(body: Body, isEmail: string -> bool): (r: Checked<RegisterInput>)
    ensures r.Valid? <==>
      (body.Fields? && RequiredString(body.fields, "name").Valid? && EmailString(body.fields, "email", isEmail).Valid?
       && LongString(body.fields, "password", MinPasswordLength).Valid?
       && NoUnknownKeys(body.fields, RegisterKeys).Valid?)
    ensures r.Valid? ==>
      r.value == RegisterInput(RequiredString(body.fields, "name").value, RequiredString(body.fields, "email").value,
                               RequiredString(body.fields, "password").value)
    ensures r.Valid? ==> r.value.name != "" && isEmail(r.value.email) && Text.Utf16Length(r.value.password) >= MinPasswordLength
    ensures r.Invalid? ==> |r.message| > 0
  {
    match body
    case NotAnObject => Invalid(NotAnObjectMessage)
    case Fields(f) =>
      var name :- RequiredString(f, "name");
      var email :- EmailString(f, "email", isEmail);
      var password :- LongString(f, "password", MinPasswordLength);
      var known :- NoUnknownKeys(f, RegisterKeys);
      Valid(RegisterInput(name, email, password))
  }

  /** `schemas.login`. */
  function LoginSchema(body: Body, isEmail: string -> bool): (r: Checked<LoginInput>)
    ensures r.Valid? <==>
      (body.Fields? && EmailString(body.fields, "email", isEmail).Valid? && RequiredString(body.fields, "password").Valid?
       && NoUnknownKeys(body.fields, LoginKeys).Valid?)
    ensures r.Valid? ==>
      r.value == LoginInput(RequiredString(body.fields, "email").value, RequiredString(body.fields, "password").value)
    ensures r.Valid? ==> isEmail(r.value.email) && r.value.password != ""
    ensures r.Invalid? ==> |r.message| > 0
  {
    match body
    case NotAnObject => Invalid(NotAnObjectMessage)
    case Fields(f) =>
      var email :- EmailString(f, "email", isEmail);
      var password :- RequiredString(f, "password");
      var known :- NoUnknownKeys(f, LoginKeys);
      Valid(LoginInput(email, password))
  }

  /**
   * The `validate` middleware: a rejected body becomes an `Error` carrying
   * Joi's message and no status; an accepted one is replaced by the
   * normalised value the handler then reads.
   */
  function Validate<T>(checked: Checked<T>): (r: Result<T, AppError>)
    ensures checked.Valid? <==> r.Ok?
    ensures r.Ok? ==> r.value == checked.value
    ensures r.Err? ==> r.error.status.None? && r.error.message == checked.message
  {
    match checked
    case Valid(v) => Ok(v)
    case Invalid(m) => Err(Raise(m))
  }

  /** A body any schema rejects reaches the client as 400 with Joi's own message. */
  lemma RejectedBodiesAre400<T>(checked: Checked<T>)
    requires checked.Invalid? && |checked.message| > 0
    ensures ErrorHandler(Validate(checked).error) == ErrorReply(400, checked.message)
  {
  }

  /**
   * With the two ids well-formed and no stray key, a borrow body is accepted
   * exactly when `days` is absent (then 7) or a whole number in [1, 30]
   * (then that number): out-of-range values are rejected, not clamped.
   */
  lemma BorrowDaysRule(f: seq<(string, Raw)>, numeral: string -> Option<real>)
    requires RequiredString(f, "bookId").Valid? && RequiredString(f, "memberId").Valid?
    requires forall i :: 0 <= i < |f| ==> f[i].0 in BorrowKeys
    ensures var r := BorrowSchema(Fields(f), numeral);
      && (Lookup(f, "days").None? ==> r.Valid? && r.value.days == DefaultDays)
      && (Lookup(f, "days").Some? ==> (r.Valid? <==> IsWholeIn(NumberOf(Lookup(f, "days").value, numeral), 1.0, 30.0)))
      && (r.Valid? && Lookup(f, "days").Some? ==> NumberOf(Lookup(f, "days").value, numeral) == Some(r.value.days as real))
  {
    var days := Integer(f, "days", DefaultDays, MinDays, Some(MaxDays), numeral);
    assert NoUnknownKeys(f, BorrowKeys).Valid?;
    assert BorrowSchema(Fields(f), numeral).Valid? <==> days.Valid?;
    if days.Valid? {
      assert BorrowSchema(Fields(f), numeral).value.days == days.value;
    }
  }

  /**
   * The body the borrow form posts, every field a string: with a `numeral`
   * that reads "14" as 14, it is accepted with 14 days.
   */
  lemma FormDaysAccepted(numeral: string -> Option<real>)
    requires numeral("14") == Some(14.0)
    ensures BorrowSchema(Fields([("bookId", JStr("b1")), ("memberId", JStr("m1")), ("days", JStr("14"))]), numeral)
         == Valid(BorrowInput("b1", "m1", 14))
  {
    var f := [("bookId", JStr("b1")), ("memberId", JStr("m1")), ("days", JStr("14"))];
    assert Lookup(f, "days") == Some(JStr("14"));
    assert Lookup(f, "bookId") == Some(JStr("b1"));
    assert Lookup(f, "memberId") == Some(JStr("m1"));
    assert RequiredString(f, "bookId") == Valid("b1");
    assert RequiredString(f, "memberId") == Valid("m1");
    assert Integer(f, "days", DefaultDays, MinDays, Some(MaxDays), numeral) == Valid(14);
    assert UnknownKey(f, BorrowKeys).None?;
  }

  /** A register body names its first missing field: `name`, then `email`, then `password`. */
  lemma RegisterFieldRules(f: seq<(string, Raw)>, isEmail: string -> bool)
    ensures Lookup(f, "name").None? ==> RegisterSchema(Fields(f), isEmail) == Invalid(Label("name") + " is required")
    ensures RequiredString(f, "name").Valid? && Lookup(f, "email").None? ==>
      RegisterSchema(Fields(f), isEmail) == Invalid(Label("email") + " is required")
    ensures RequiredString(f, "name").Valid? && EmailString(f, "email", isEmail).Valid? && Lookup(f, "password").None? ==>
      RegisterSchema(Fields(f), isEmail) == Invalid(Label("password") + " is required")
  {
    if Lookup(f, "name").None? {
      assert RequiredString(f, "name") == Invalid(Label("name") + " is required");
    } else if RequiredString(f, "name").Valid? {
      if Lookup(f, "email").None? {
        assert EmailString(f, "email", isEmail) == Invalid(Label("email") + " is required");
      } else if EmailString(f, "email", isEmail).Valid? && Lookup(f, "password").None? {
        assert LongString(f, "password", MinPasswordLength) == Invalid(Label("password") + " is required");
      }
    }
  }

  /**
   * With name and email accepted, a password shorter than 6 UTF-16 units is
   * refused with Joi's length message, and one of 6 or more is accepted.
   */
  lemma RegisterPasswordRule(f: seq<(string, Raw)>, isEmail: string -> bool)
    requires RequiredString(f, "name").Valid? && EmailString(f, "email", isEmail).Valid?
    requires RequiredString(f, "password").Valid? && NoUnknownKeys(f, RegisterKeys).Valid?
    ensures Text.Utf16Length(RequiredString(f, "password").value) < MinPasswordLength ==>
      RegisterSchema(Fields(f), isEmail) == Invalid(Label("password") + " length must be at least 6 characters long")
    ensures Text.Utf16Length(RequiredString(f, "password").value) >= MinPasswordLength ==>
      RegisterSchema(Fields(f), isEmail).Valid?
      && RegisterSchema(Fields(f), isEmail).value.password == RequiredString(f, "password").value
  {
    var password := RequiredString(f, "password").value;
    if Text.Utf16Length(password) < MinPasswordLength {
      ShortPasswordMessage(f);
    } else {
      assert LongString(f, "password", MinPasswordLength) == Valid(password);
    }
  }

  /** Joi's message for a password under the minimum, with the minimum spelled out. */
  lemma ShortPasswordMessage(f: seq<(string, Raw)>)
    requires RequiredString(f, "password").Valid?
    requires Text.Utf16Length(RequiredString(f, "password").value) < MinPasswordLength
    ensures LongString(f, "password", MinPasswordLength) == Invalid(Label("password") + " length must be at least 6 characters long")
  {
    MinPasswordLengthText();
  }

  /** The minimum password length as the message spells it. */
  lemma MinPasswordLengthText()
    ensures Label("password") + " length must be at least " + Text.Decimal(MinPasswordLength) + " characters long"
         == Label("password") + " length must be at least 6 characters long"
  {
    assert Text.Decimal(MinPasswordLength) == "6";
  }

  /** A login body names its first missing field: `email`, then `password`. */
  lemma LoginFieldRules(f: seq<(string, Raw)>, isEmail: string -> bool)
    ensures Lookup(f, "email").None? ==> LoginSchema(Fields(f), isEmail) == Invalid(Label("email") + " is required")
    ensures EmailString(f, "email", isEmail).Valid? && Lookup(f, "password").None? ==>
      LoginSchema(Fields(f), isEmail) == Invalid(Label("password") + " is required")
  {
    if Lookup(f, "email").None? {
      assert EmailString(f, "email", isEmail) == Invalid(Label("email") + " is required");
    } else if EmailString(f, "email", isEmail).Valid? && Lookup(f, "password").None? {
      assert RequiredString(f, "password") == Invalid(Label("password") + " is required");
    }
  }

  /** A book body without `copies` stores one copy; with `copies`, exactly the given whole number of at least 0. */
  lemma BookCopiesRule(f: seq<(string, Raw)>, numeral: string -> Option<real>)
    requires RequiredString(f, "title").Valid? && RequiredString(f, "author").Valid? && OptionalIsbn(f, "isbn").Valid?
    requires forall i :: 0 <= i < |f| ==> f[i].0 in BookKeys
    ensures var r := BookSchema(Fields(f), numeral);
      && (Lookup(f, "copies").None? ==> r.Valid? && r.value.copies == DefaultCopies)
      && (Lookup(f, "copies").Some? ==> (r.Valid? <==> IsWholeIn(NumberOf(Lookup(f, "copies").value, numeral), 0.0, MaxSafeInteger as real)))
      && (r.Valid? && Lookup(f, "copies").Some? ==> NumberOf(Lookup(f, "copies").value, numeral) == Some(r.value.copies as real))
  {
    var copies := Integer(f, "copies", DefaultCopies, MinCopies, None, numeral);
    assert NoUnknownKeys(f, BookKeys).Valid?;
    assert BookSchema(Fields(f), numeral).Valid? <==> copies.Valid?;
    if copies.Valid? {
      assert BookSchema(Fields(f), numeral).value.copies == copies.value;
    }
  }
}

=== FILE: text.dfy ===
/**
 * String helpers behind the Mongoose `trim` and `lowercase` setters and the
 * `startsWith` test of the authorization header.
 */
module Text {

  /** The white-space and line-terminator code points that `String.prototype.trim` strips. */
  const SpaceCodes: set<int> :=
    {0x09, 0x0A, 0x0B, 0x0C, 0x0D, 0x20, 0xA0, 0x1680,
     0x2000, 0x2001, 0x2002, 0x2003, 0x2004, 0x2005, 0x2006, 0x2007, 0x2008, 0x2009, 0x200A,
     0x2028, 0x2029, 0x202F, 0x205F, 0x3000, 0xFEFF}

  predicate IsSpace(c: char) {
    c as int in SpaceCodes
  }

  /** Every code point of `s` in `[lo, hi)` is white space. */
  ghost predicate SpaceBetween(s: string, lo: nat, hi: nat) {
    forall k :: lo <= k < hi && k < |s| ==> IsSpace(s[k])
  }

  /** `r` is `s` with nothing but white space removed from its two ends. */
  ghost predicate PaddedBy(s: string, r: string) {
    exists i, j :: 0 <= i <= j <= |s| && r == s[i..j] && SpaceBetween(s, 0, i) && SpaceBetween(s, j, |s|)
  }

  /** The first index from `i` on that is not white space (or `|s|`). */
  function SkipStart(s: string, i: nat): (j: nat)
    requires i <= |s|
    ensures i <= j <= |s|
    ensures SpaceBetween(s, i, j)
    ensures j == |s| || !IsSpace(s[j])
    decreases |s| - i
  {
    if i < |s| && IsSpace(s[i]) then SkipStart(s, i + 1) else i
  }

  /** The end of `s[lo..hi]` once the white space before `hi` is dropped. */
  function SkipEnd(s: string, lo: nat, hi: nat): (k: nat)
    requires lo <= hi <= |s|
    ensures lo <= k <= hi
    ensures SpaceBetween(s, k, hi)
    ensures k == lo || !IsSpace(s[k - 1])
    decreases hi
  {
    if lo < hi && IsSpace(s[hi - 1]) then SkipEnd(s, lo, hi - 1) else hi
  }

  /** JavaScript `s.trim()`. */
  function Trim(s: string): (r: string)
    ensures PaddedBy(s, r)
    ensures r == [] || (!IsSpace(r[0]) && !IsSpace(r[|r| - 1]))
  {
    var i := SkipStart(s, 0);
    var j := SkipEnd(s, i, |s|);
    assert j == i || !IsSpace(s[i]);
    s[i..j]
  }

  /** Trimming a trimmed string changes nothing. */
  lemma TrimIdempotent(s: string)
    ensures Trim(Trim(s)) == Trim(s)
  {
    var r := Trim(s);
    assert SkipStart(r, 0) == 0;
    assert SkipEnd(r, 0, |r|) == |r|;
  }

  /** Mongoose's `lowercase` setter: `toLowerCase`, here on the ASCII letters. */
  function LowerChar(c: char): char {
    if 'A' <= c <= 'Z' then (c as int + 32) as char else c
  }

  function Lower(s: string): (r: string)
    ensures |r| == |s|
    ensures forall i :: 0 <= i < |s| ==> r[i] == LowerChar(s[i])
  {
    seq(|s|, i requires 0 <= i < |s| => LowerChar(s[i]))
  }

  /** Lowering case neither creates nor removes white space. */
  lemma LowerCharKeepsSpace(c: char)
    ensures IsSpace(LowerChar(c)) <==> IsSpace(c)
  {
  }

  /** Lowering case moves neither trimming boundary. */
  lemma {:induction false} SkipStartLower(s: string, i: nat)
    requires i <= |s|
    ensures SkipStart(Lower(s), i) == SkipStart(s, i)
    decreases |s| - i
  {
    if i < |s| {
      LowerCharKeepsSpace(s[i]);
      if IsSpace(s[i]) {
        SkipStartLower(s, i + 1);
      }
    }
  }

  lemma {:induction false} SkipEndLower(s: string, lo: nat, hi: nat)
    requires lo <= hi <= |s|
    ensures SkipEnd(Lower(s), lo, hi) == SkipEnd(s, lo, hi)
    decreases hi
  {
    if lo < hi {
      LowerCharKeepsSpace(s[hi - 1]);
      if IsSpace(s[hi - 1]) {
        SkipEndLower(s, lo, hi - 1);
      }
    }
  }

  /** Lowering a slice is slicing the lowered string. */
  lemma LowerSlice(s: string, i: nat, j: nat)
    requires i <= j <= |s|
    ensures Lower(s)[i..j] == Lower(s[i..j])
  {
    forall k | 0 <= k < j - i
      ensures Lower(s)[i..j][k] == Lower(s[i..j])[k]
    {
      assert Lower(s)[i..j][k] == LowerChar(s[i + k]);
    }
  }

  /** The `lowercase` and `trim` setters commute, so their order in the schema is immaterial. */
  lemma LowerTrimCommute(s: string)
    ensures Trim(Lower(s)) == Lower(Trim(s))
  {
    var i := SkipStart(s, 0);
    SkipStartLower(s, 0);
    SkipEndLower(s, i, |s|);
    var j := SkipEnd(s, i, |s|);
    LowerSlice(s, i, j);
  }

  lemma LowerIdempotent(s: string)
    ensures Lower(Lower(s)) == Lower(s)
  {
  }

  /** The ASCII letters of a lowered string are all lower case. */
  lemma LowerHasNoUpper(s: string)
    ensures forall i :: 0 <= i < |Lower(s)| ==> !('A' <= Lower(s)[i] <= 'Z')
  {
  }

  /** Code points above the Basic Multilingual Plane take two UTF-16 code units (a surrogate pair). */
  const FirstAstral := 0x10000

  /** JavaScript's `s.length`: the number of UTF-16 code units, not of code points. */
  function Utf16Length(s: string): (n: nat)
    ensures |s| <= n <= 2 * |s|
    ensures n == |s| <==> forall i :: 0 <= i < |s| ==> (s[i] as int) < FirstAstral
    ensures n == 2 * |s| <==> forall i :: 0 <= i < |s| ==> (s[i] as int) >= FirstAstral
  {
    if |s| == 0 then 0
    else (if (s[0] as int) >= FirstAstral then 2 else 1) + Utf16Length(s[1..])
  }

  /** The UTF-16 length of a concatenation is the sum of the parts' lengths. */
  lemma {:induction false} Utf16LengthAppend(a: string, b: string)
    ensures Utf16Length(a + b) == Utf16Length(a) + Utf16Length(b)
    decreases |a|
  {
    if |a| == 0 {
      assert a + b == b;
    } else {
      assert (a + b)[0] == a[0];
      assert (a + b)[1..] == a[1..] + b;
      Utf16LengthAppend(a[1..], b);
    }
  }

  /** Three astral code points (three emoji, say) are already six UTF-16 units. */
  lemma AstralCountsTwice()
    ensures |"\U{1F600}\U{1F600}\U{1F600}"| == 3
    ensures Utf16Length("\U{1F600}\U{1F600}\U{1F600}") == 6
  {
    var s := "\U{1F600}\U{1F600}\U{1F600}";
    assert s[1..][1..][1..] == [];
  }

  predicate StartsWith(s: string, prefix: string) {
    |prefix| <= |s| && s[..|prefix|] == prefix
  }

  /** Decimal rendering of a natural number, as JavaScript prints it in a message. */
  function Decimal(n: nat): (r: string)
    ensures |r| >= 1
    ensures forall i :: 0 <= i < |r| ==> '0' <= r[i] <= '9'
  {
    var digit := ['0' + (n % 10) as char];
    if n < 10 then digit else Decimal(n / 10) + digit
  }
}

=== FILE: wrappers.dfy ===
/** The Option and Result types shared by every module of the model. */
module Wrappers {

  /** A value that may be absent: JavaScript's `undefined`/`null` in a document field. */
  datatype Option<+T> = None | Some(value: T) {

    /** The value, or `default` when absent. */
    function GetOr(default: T): T {
      match this
      case Some(v) => v
      case None => default
    }
  }

  /** The outcome of a request handler step: a value, or the error it passes to `next`. */
  datatype Result<+T, +E> = Ok(value: T) | Err(error: E)
}
